=== FILE: README.md ===
# MPU-6050 register driver over a Linux I2C device

This project models a user-space driver for the InvenSense MPU-6050 inertial sensor on a Raspberry Pi 4. It has three layers.

- **The I2C handle** (`UNR_I2CHandle`) opens `/dev/i2c-0` or `/dev/i2c-1`, sets the slave address and closes the descriptor. It runs register transactions:
  - a register write is one `write` of `[register] ++ data` staged in a 255-byte scratch buffer;
  - a register read is a one-byte pointer `write` followed by a `read`.
  - It also offers plain writes and reads, and maps each call's return value to -1 or a byte count.
- **The sensor driver** (`MPU6050_RaspbPi`) has:
  - private getters and setters (MPU6050_RaspbPi.h:32-187), which only `initialize` calls, always with the X-gyro PLL, +/-250 deg/s, +/-2 g and sleep off (MPU6050_RaspbPi.cpp:40-43); `getSleepEnabled` has no caller. They cover the clock source (PWR_MGMT_1, bits 2:0), the gyro and accelerometer full-scale ranges (FS_SEL, bits 4:3 of GYRO_CONFIG and ACCEL_CONFIG) and the SLEEP bit (bit 6 of PWR_MGMT_1);
  - the scale-table lookup for the ranges;
  - `initialize`, which checks WHO_AM_I against 0x68 and then runs a fixed configuration sequence.
- **The sample codec** reads a 14-byte burst starting at ACCEL_XOUT_H. It holds seven big-endian 16-bit fields: ax, ay, az, temp, gx, gy, gz. On a little-endian host `swapAllBytes` restores the byte order in place, and `_f2sComplement` decodes each field as a signed count.

Register addresses and bit positions follow the MPU-6000/MPU-6050 Register Map and Descriptions:

| section | register |
|---|---|
| 4.4 | GYRO_CONFIG |
| 4.5 | ACCEL_CONFIG |
| 4.17-4.19 | sensor output registers |
| 4.28 | PWR_MGMT_1 |
| 4.32 | WHO_AM_I |

## Files

| file | module | contents |
|---|---|---|
| `register_map.dfy` | `RegisterMap` | register addresses and bit positions; the clock and range tables; field extraction, the OR merge the setters use, and the replace-field operation they intend |
| `sample_codec.dfy` | `SampleCodec` | the 14-byte layout as seven 2-byte fields; SWAP_BYTES and `swapAllBytes` on a little-endian host; the two's-complement decode and its inverse |
| `i2c_handle.dfy` | `I2CHandle` | the bus, with the sensor's register file and register pointer, an outcome schedule and a call trace; register and plain transfers; opening and release; the trace discipline ("every read follows a pointer write that moved its byte") |
| `mpu6050.dfy` | `Mpu6050` | the driver exactly as written, with one lemma per defect that exhibits it on a concrete input |
| `mpu6050_fixed.dfy` | `Mpu6050Fixed` | the driver as its comments and the register map describe it, with the properties the literal driver lacks proved under any bus behaviour |

### The bus

A `Bus` holds:

- the descriptor and the slave address;
- the 255-byte scratch buffer;
- a `Chip`: the register file as a map from address to byte, plus the register pointer;
- an outcome schedule;
- the trace of calls issued.

Each `write` or `read` takes the next outcome from the schedule:

- `Complete` moves every byte;
- `Fail` returns -1 and moves nothing;
- `Short(k)` moves only the first `k` bytes.

An empty schedule means every call completes; such a bus is `Healthy`. A call is `Completed` when a write moved all its bytes or a read delivered its full count. A run `StopsAtFailure` when either all its calls completed, or only its last call did not, so nothing was issued after the failing call.

On the sensor side:

- A write moves its first byte into the register pointer and stores the rest from there on.
- A read returns bytes from the pointer on.
- Registers the map does not hold read as 0x00.

### Two readings the code settles

**The getters discard the byte they read.** `getClockSource`, `getFullScaleGyroRange` and `getFullScaleAccelRange` take their byte parameter by value (MPU6050_RaspbPi.h:132, :153, :172; MPU6050_RaspbPi.cpp:46-51, :60-65). They also clear `tempBuffer` first (MPU6050_RaspbPi.h:100). So the byte a getter reads goes into a copy and is lost. The setter then ORs its field into the zeroed `tempBuffer[0]`: it writes the field alone and clears every other bit of the register. The model does the same.

**A sample is decoded to counts before any scaling.** `swapAllBytes` and `_f2sComplement` (MPU6050_RaspbPi.h:81-90; MPU6050_RaspbPi.cpp:160-170) turn the wire pair `04 00` into the count 0x0400 = 1024. Only `getDoubleSensorValues` divides by the scale afterwards (MPU6050_RaspbPi.cpp:141-149). `Mpu6050.SampleDecodesRegisterPairs` states the count.

## Model

| member | source | states |
|---|---|---|
| RegisterMap.ClockOf | MPU6050_RaspbPi.h:117-128 | the clock source a PWR_MGMT_1 value selects is the table row whose code equals bits 2:0 |
| RegisterMap.ClockCodeRoundTrip | MPU6050_RaspbPi.h:117-128 | every clock source has a 3-bit code, and that code selects it back |
| RegisterMap.GyroScaleFor | MPU6050_RaspbPi.cpp:69-76 | codes 0-3 select the gyro scale entry with that code; every other code selects the +/-250 deg/s entry |
| RegisterMap.AccelScaleFor | MPU6050_RaspbPi.cpp:92-99 | codes 0-3 select the accel scale entry with that code; every other code selects the +/-2 g entry |
| RegisterMap.ScaleTablesRoundTrip | MPU6050_RaspbPi.h:139-165 | each documented range's own 2-bit code selects that range from the table |
| RegisterMap.GyroTableMonotone | MPU6050_RaspbPi.h:139-145 | a larger documented gyro code never selects a smaller full scale |
| RegisterMap.AccelTableMonotone | MPU6050_RaspbPi.h:155-165 | a larger documented accel code never selects a smaller full-scale range |
| RegisterMap.ClockField | MPU6050_RaspbPi.cpp:56 | `source & 0b111` is below 8 and selects the same clock source as `source` |
| RegisterMap.FsField | MPU6050_RaspbPi.cpp:78 | `(code << (selBit - 1)) & 0x18` has no bit outside 4:3; with FS_SEL_BIT (4) those bits hold the code's low two bits |
| RegisterMap.FieldOfRangeDecodes | MPU6050_RaspbPi.cpp:78-101 | the field written for a range's code, with FS_SEL_BIT for the gyro and AFS_SEL_BIT for the accel, reads back as that range |
| RegisterMap.Merge | MPU6050_RaspbPi.cpp:56 | OR-ing a field into a held byte keeps every bit of both |
| RegisterMap.MergeCannotClearField | MPU6050_RaspbPi.cpp:56 | a merged clock field cannot lower a set field: clock 3 merged with code 0 still reads as clock 3 |
| RegisterMap.ReplaceField | MPU6050_RaspbPi.cpp:121 | the read-modify-write the SLEEP setter performs: the bits under the mask become the field, all other bits are kept |
| RegisterMap.ReplaceClockField | MPU6050_RaspbPi.cpp:53-58 | replacing the clock field selects exactly the requested source and keeps the SLEEP bit |
| RegisterMap.ReplaceFsField | MPU6050_RaspbPi.cpp:67-80 | replacing FS_SEL with a documented code's field selects exactly that range |
| RegisterMap.OutOfTableCodeDesynchronizes | MPU6050_RaspbPi.cpp:90-101 | a code above 3 selects the default scale entry while its low two bits reach the register (gyro 5: +/-250 vs +/-500; accel 6: +/-2 g vs +/-8 g) |
| RegisterMap.SleepFieldKeepsClock | MPU6050_RaspbPi.cpp:114-128 | replacing bit 6 sets the sleep state to the field and keeps the clock source |
| SampleCodec.FieldsTileBuffer | MPU6050_RaspbPi.h:35-80 | the seven 2-byte fields tile the 14-byte buffer: byte i belongs to field i/2 and to no other |
| Mpu6050.BurstRegistersMatchRegisterMap | MPU6050_RaspbPi.h:35-80 | in a burst from ACCEL_XOUT_H each channel's high byte comes from its own register: 0x3B, 0x3D, 0x3F, TEMP_OUT_H (0x41), GYRO_XOUT_H (0x43), 0x45 and 0x47, in the order ax, ay, az, temp, gx, gy, gz |
| SampleCodec.SwapBytes | MPU6050_RaspbPi.h:28 | the result's low byte is the input's high byte, and the other way round |
| SampleCodec.SwapBytesTwice | MPU6050_RaspbPi.h:28 | SWAP_BYTES applied twice is the identity |
| SampleCodec.StoreField | MPU6050_RaspbPi.h:33-80 | writing a field through the union changes that field's two bytes and nothing else |
| SampleCodec.SwapAllBytes | MPU6050_RaspbPi.h:81-90 | each field's two bytes are exchanged; afterwards every field equals the big-endian value `256*b[2i] + b[2i+1]` of the bytes before |
| SampleCodec.SwapAllBytesTwice | MPU6050_RaspbPi.h:81-90 | swapping the whole buffer twice gives it back |
| SampleCodec.F2sComplement | MPU6050_RaspbPi.cpp:160-170 | total on 16-bit inputs with result in [-32768, 32767]; inputs below 0x8000 are returned and left as they are; the others give `in - 65536` and leave `-result` in the argument |
| SampleCodec.DecodeEncode | MPU6050_RaspbPi.cpp:160-170 | re-encoding the decoded count as 16-bit two's complement gives the input back |
| SampleCodec.EncodeDecode | MPU6050_RaspbPi.cpp:160-170 | every count in [-32768, 32767] is the decode of its 16-bit encoding |
| SampleCodec.F2sComplementSamples | MPU6050_RaspbPi.cpp:160-170 | 0x0000 decodes to 0, 0x7FFF to 32767, 0x8000 to -32768 and 0xFFFF to -1, with the argument rewritten to 0x8000 and 0x0001 in the last two |
| SampleCodec.DecodeAll | MPU6050_RaspbPi.cpp:141-149 | every channel's count is the decode of its field, and every field is rewritten as the decode leaves it |
| SampleCodec.SwapThenDecode | MPU6050_RaspbPi.cpp:133-149 | after the swap, each channel's count is the signed value of the big-endian pair the sensor sent |
| I2CHandle.Preload | UNR_BCM2711_I2CHandle.cpp:131-133 | the staged frame is the register address, then the data, then zeros to the end of the 255-byte buffer |
| I2CHandle.WriteReg | UNR_BCM2711_I2CHandle.cpp:128-149 | one write of exactly `[reg] ++ data`; -1 iff that write returned -1, otherwise `numBytes`; on a healthy bus the data lands from `reg` on |
| I2CHandle.ReadReg | UNR_BCM2711_I2CHandle.cpp:187-190 | a one-byte pointer write, then a read of `numBytes` only if the pointer write moved its byte; -1 leaves the buffer as it was; otherwise the read's own count comes back, and that many register bytes land at the buffer's front |
| I2CHandle.WriteSimple | UNR_BCM2711_I2CHandle.cpp:215 | one write of the data with no address prefix; -1 on failure, otherwise `numBytes` |
| I2CHandle.ReadSimple | UNR_BCM2711_I2CHandle.cpp:241 | one read of `numBytes`; -1 on failure with the buffer untouched, otherwise `numBytes`, with the bytes received at the buffer's front |
| I2CHandle.SimpleWriteIsRegisterWrite | UNR_BCM2711_I2CHandle.cpp:128-218 | a plain write of `[reg] ++ data` issues the same call and leaves the same peripheral and trace as `i2c_writeReg`; it fails exactly when that does and otherwise reports one byte more |
| I2CHandle.SimpleCallsMakeRegisterRead | UNR_BCM2711_I2CHandle.cpp:158-244 | once a plain write of the register address moved its byte, a plain read leaves the same bus and buffer as `i2c_readReg` and fails exactly when it does; on a healthy bus the pair delivers the registers from `reg` on |
| I2CHandle.DevicePath | UNR_BCM2711_I2CHandle.cpp:73-108 | instance 0 opens `/dev/i2c-0`; instance 1 and every other value open `/dev/i2c-1` |
| I2CHandle.Open | UNR_BCM2711_I2CHandle.cpp:66-120 | construction succeeds iff `open` gave a descriptor and `ioctl` did not return -1; an open failure and a mode failure are distinct errors; the source's messages (UNR_BCM2711_I2CHandle.cpp:42, :58) do not name the path, which the model's error record adds |
| I2CHandle.Release | UNR_BCM2711_I2CHandle.cpp:248-253 | the descriptor is closed only when it is non-zero; descriptor and address end up 0 |
| I2CHandle.ReleaseTwice | UNR_BCM2711_I2CHandle.cpp:250-252 | releasing twice equals releasing once |
| I2CHandle.ReleaseClosesOnce | UNR_BCM2711_I2CHandle.cpp:250-252 | any number of releases adds at most one close to the trace |
| I2CHandle.RegReadDisciplined | UNR_BCM2711_I2CHandle.cpp:187-190 | the calls of one register read obey the discipline: no read without a pointer write that moved its byte just before it |
| I2CHandle.DisciplineConcat | UNR_BCM2711_I2CHandle.cpp:187-190 | disciplined call runs stay disciplined when concatenated, so the discipline holds over whole programs |
| I2CHandle.CompletionConcat | UNR_BCM2711_I2CHandle.cpp:147-190 | after a fully completed run, a run that stops at its failure still does so joined to it, and the whole completes iff the second part does |
| I2CHandle.ShortWriteReportsSuccess | UNR_BCM2711_I2CHandle.cpp:147 | a write that moves only the address byte still returns 1, while the register keeps its old value |
| I2CHandle.WriteRegExact | UNR_BCM2711_I2CHandle.cpp:147 | corrected: `numBytes` iff all `numBytes + 1` bytes moved, that is iff its call completed, and then the data is in the registers; a failed one-byte write leaves the registers unchanged |
| I2CHandle.ReadRegExact | UNR_BCM2711_I2CHandle.cpp:187-190 | corrected: -1 or `numBytes`, and `numBytes` iff both calls completed, and then the burst equals the registers from `reg` on; a pointer write that fell short issues no read |
| Mpu6050.Construct | MPU6050_RaspbPi.h:190-198 | a new driver opens bus instance 1 at the given address with the scratch pair and access register cleared, the +/-250 deg/s and +/-2 g entries, and bursts from ACCEL_XOUT_H; either open failure aborts construction |
| Mpu6050.Destroy | MPU6050_RaspbPi.cpp:172-175 | destruction releases the handle: one close if the descriptor is open, none otherwise |
| Mpu6050.Probe | MPU6050_RaspbPi.cpp:46-51 | a getter reads one byte of its register into a by-value copy: it returns the read's code and leaves `tempBuffer` cleared |
| Mpu6050.GetClockSource | MPU6050_RaspbPi.cpp:46-51 | one register read of PWR_MGMT_1 whose return code comes back; the byte read is lost |
| Mpu6050.GetFullScaleGyroRange | MPU6050_RaspbPi.cpp:60-65 | one register read of GYRO_CONFIG whose return code comes back; the byte read is lost |
| Mpu6050.GetFullScaleAccelRange | MPU6050_RaspbPi.cpp:83-88 | one register read of ACCEL_CONFIG whose return code comes back; the byte read is lost |
| Mpu6050.OrWrite | MPU6050_RaspbPi.cpp:56-57 | one write of `[accessRegister, tempBuffer[0] OR field]`; its code becomes 1 or -1 |
| Mpu6050.ProbeThenWrite | MPU6050_RaspbPi.cpp:55-57 | a setter either fails its read with -1 and issues no write, or reads and then writes once, returning -1 exactly when the write failed |
| Mpu6050.SetClockSource | MPU6050_RaspbPi.cpp:53-58 | no write after a failed read; otherwise one write of `source & 7` to PWR_MGMT_1; on a healthy bus PWR_MGMT_1 becomes exactly that byte |
| Mpu6050.SetFullScaleGyroRange | MPU6050_RaspbPi.cpp:67-80 | the scale entry becomes the table entry of the code whatever happens on the bus; no write after a failed read; otherwise one write of the FS field alone |
| Mpu6050.SetFullScaleAccelRange | MPU6050_RaspbPi.cpp:90-103 | as the gyro setter, for ACCEL_CONFIG and the accel table |
| Mpu6050.Fetch | MPU6050_RaspbPi.cpp:107-109 | a one-byte read into the cleared `tempBuffer[0]`: after a failure it holds 0, otherwise the byte received (on a healthy bus, the register) |
| Mpu6050.GetSleepEnabled | MPU6050_RaspbPi.cpp:105-112 | false after a failed read; otherwise true iff the received byte is non-zero (logical `&&`) |
| Mpu6050.SleepByte | MPU6050_RaspbPi.cpp:121 | the byte written has bit 6 equal to the argument and every other bit as read |
| Mpu6050.StorePower | MPU6050_RaspbPi.cpp:123-127 | write the new PWR_MGMT_1 byte; -1 if the write failed (no re-read), otherwise re-read and return 1 iff the re-read did not fail |
| Mpu6050.SetSleepEnabled | MPU6050_RaspbPi.cpp:114-128 | read, write, read again, each step only after the previous one succeeded; 1 or -1; on a healthy bus only bit 6 of PWR_MGMT_1 changes |
| Mpu6050.SleepShape | MPU6050_RaspbPi.cpp:116-127 | the calls of setSleepEnabled have the read/write/re-read shape and obey the discipline |
| Mpu6050.BurstWords | MPU6050_RaspbPi.h:81-90 | the big-endian value of each field of a complete burst is the pair of registers it came from |
| Mpu6050.GetSensorValues | MPU6050_RaspbPi.cpp:130-135 | one 14-byte register read at the burst register; -1 iff the read failed, and then the sample is unchanged; otherwise 1 and the swapped bytes that landed; on a healthy bus every field is its register pair |
| Mpu6050.GetDoubleSensorValues | MPU6050_RaspbPi.cpp:137-158 | -1 leaves the outputs untouched; on success each count is the signed value of its wire pair; on a healthy bus, of its register pair |
| Mpu6050.ConfigureClockAndGyro | MPU6050_RaspbPi.cpp:40-41 | the clock and gyro steps of initialize, results ignored: gyro scale +/-250 deg/s; on a healthy bus PWR_MGMT_1 = 0x01 and GYRO_CONFIG = 0x00, nothing else changes |
| Mpu6050.ConfigureAccelAndSleep | MPU6050_RaspbPi.cpp:42-43 | the accel and sleep steps of initialize, results ignored: accel scale +/-2 g; on a healthy bus ACCEL_CONFIG = 0x00, PWR_MGMT_1 stays 0x01 |
| Mpu6050.Configure | MPU6050_RaspbPi.cpp:40-43 | the whole configuration sequence is disciplined, and on a healthy bus it leaves exactly PWR_MGMT_1 = 0x01, GYRO_CONFIG = ACCEL_CONFIG = 0x00 |
| Mpu6050.ConfiguredInTwoHalves | MPU6050_RaspbPi.cpp:40-43 | the register effects of the two halves compose to the effect of the whole sequence |
| Mpu6050.Initialize | MPU6050_RaspbPi.cpp:25-44 | -1 iff the WHO_AM_I read failed, -2 if the byte is not 0x68, in both cases with no further call; otherwise the configuration runs and 0 is returned |
| Mpu6050.IdentifiedThenConfigured | MPU6050_RaspbPi.cpp:28-43 | an identity read that did not fail, followed by the configuration run, is a disciplined call sequence starting at WHO_AM_I |
| Mpu6050.Step | MPU6050_RaspbPi.cpp:25-158 | every driver call issues a disciplined run of bus calls that opens with a pointer write |
| Mpu6050.Run | MPU6050_RaspbPi.cpp:25-158 | any program of driver calls, under any bus behaviour, never reads without a successful pointer write just before, and never writes data without a read that did not fail just before |
| Mpu6050.SetClockSourceClearsSleep | MPU6050_RaspbPi.cpp:46-58 | on a part asleep with PWR_MGMT_1 = 0x40, selecting the X-gyro PLL writes 0x01 and wakes it; a read-modify-write gives 0x41 |
| Mpu6050.RangeSetterClearsSelfTest | MPU6050_RaspbPi.cpp:60-80 | GYRO_CONFIG = 0xE0 set to +/-500 deg/s becomes 0x08, losing the self-test bits; a read-modify-write gives 0xE8 |
| Mpu6050.ScaleChangesOnFailedSet | MPU6050_RaspbPi.cpp:67-77 | a failed read returns -1 and leaves GYRO_CONFIG at +/-250 deg/s, while the gyro scale becomes +/-2000 deg/s |
| Mpu6050.OutOfTableCodeLeavesScaleBehind | MPU6050_RaspbPi.cpp:69-78 | code 5 succeeds with the +/-250 deg/s scale entry while the register is set to +/-500 deg/s |
| Mpu6050.SleepReadMisreadsClockBits | MPU6050_RaspbPi.cpp:111 | an awake part clocked from the X-gyro PLL (PWR_MGMT_1 = 0x01) reads as asleep |
| Mpu6050.ShortBurstReportsSuccess | MPU6050_RaspbPi.cpp:132 | a burst whose read moves no byte still returns 1, and the stale buffer is swapped as if it were fresh |
| Mpu6050.InitializeIgnoresFailedStep | MPU6050_RaspbPi.cpp:40-44 | when the clock setter's read of PWR_MGMT_1 fails (so no clock write is issued), initialize still returns 0 and the part stays on the internal oscillator |
| Mpu6050.SampleDecodesRegisterPairs | MPU6050_RaspbPi.cpp:130-149 | registers 0x3B/0x3C = 04/00 give ax = 1024, and 0x41/0x42 = FF/FE give temp = -2 |
| Mpu6050Fixed.ReadByte | UNR_BCM2711_I2CHandle.cpp:187-188 | a checked one-byte read: 1 iff every call completed, and then the byte is the register's value; nothing follows a call that fell short |
| Mpu6050Fixed.WriteByte | UNR_BCM2711_I2CHandle.cpp:147 | a checked one-byte write: 1 iff its call completed, and then the register holds the byte; -1 means the registers are unchanged |
| Mpu6050Fixed.UpdateField | MPU6050_RaspbPi.cpp:53-58 | the intended read-modify-write: 1 iff every call completed, and then exactly the masked field of the register changes to the field given; on -1 no register changes and no call follows the one that fell short |
| Mpu6050Fixed.Continue | MPU6050_RaspbPi.cpp:40-43 | a driver step that follows a fully completed one completes iff it does, and still stops at its failure |
| Mpu6050Fixed.GetClockSource | MPU6050_RaspbPi.cpp:46-51 | the byte read reaches the caller, and on success it selects the register's clock source |
| Mpu6050Fixed.SetClockSource | MPU6050_RaspbPi.cpp:53-58 | on 1 the clock source is the requested one and bits 7:3 (SLEEP included) keep their values, whatever the bus did; no other register changes |
| Mpu6050Fixed.ClockSetThenGet | MPU6050_RaspbPi.cpp:46-58 | a successful set followed by a successful get reads back the requested clock source |
| Mpu6050Fixed.GetFullScaleGyroRange | MPU6050_RaspbPi.cpp:60-65 | the byte read reaches the caller, and on success it decodes to GYRO_CONFIG's range |
| Mpu6050Fixed.GetFullScaleAccelRange | MPU6050_RaspbPi.cpp:83-88 | the byte read reaches the caller, and on success it decodes to ACCEL_CONFIG's range |
| Mpu6050Fixed.SetFullScaleGyroRange | MPU6050_RaspbPi.cpp:67-80 | on success the scale entry is the table's entry for the code (+/-250 deg/s for an unknown code) and the register decodes to that same range; a documented code lands in FS_SEL as is; only FS_SEL changes; -1 leaves scale and registers as they were |
| Mpu6050Fixed.SetFullScaleAccelRange | MPU6050_RaspbPi.cpp:90-103 | as the gyro setter, for ACCEL_CONFIG and the accel table (+/-2 g for an unknown code) |
| Mpu6050Fixed.RangeSetThenGet | MPU6050_RaspbPi.cpp:60-103 | any code set and read back, both succeeding, reads as the range the table gives that code |
| Mpu6050Fixed.TableFieldDecodes | MPU6050_RaspbPi.cpp:69-101 | the FS_SEL code of the table entry a code selects decodes back to that entry, and is the code itself for a documented code |
| Mpu6050Fixed.GetSleepEnabled | MPU6050_RaspbPi.cpp:105-112 | false whenever the read did not return its byte; otherwise exactly bit 6 of PWR_MGMT_1 |
| Mpu6050Fixed.SleepFieldIsSleepByte | MPU6050_RaspbPi.cpp:121 | replacing the SLEEP field gives the same byte as the source's set-or-clear of bit 6 |
| Mpu6050Fixed.SetSleepEnabled | MPU6050_RaspbPi.cpp:114-128 | on 1 only bit 6 of PWR_MGMT_1 changed, to the requested state, keeping the clock source; -1 leaves the registers unchanged |
| Mpu6050Fixed.SleepSetThenGet | MPU6050_RaspbPi.cpp:105-128 | on a healthy bus the sleep state read back is the one just set |
| Mpu6050Fixed.GetSensorValues | MPU6050_RaspbPi.cpp:130-135 | 1 only when all 14 bytes arrived, and then every field is its register pair under any bus behaviour; -1 keeps the previous sample |
| Mpu6050Fixed.GetDoubleSensorValues | MPU6050_RaspbPi.cpp:137-158 | on 1 every count is the signed value of its register pair; -1 leaves the outputs untouched |
| Mpu6050Fixed.ConfigureClockAndGyro | MPU6050_RaspbPi.cpp:40-41 | 1 iff every call completed, and no call follows the first one that fell short; on success the clock is the X-gyro PLL, the SLEEP bit is kept and the gyro range is +/-250 deg/s in register and scale |
| Mpu6050Fixed.ConfigureAccelAndSleep | MPU6050_RaspbPi.cpp:42-43 | 1 iff every call completed, and no call follows the first one that fell short; on success the accel range is +/-2 g in register and scale and the part is awake, with the clock and GYRO_CONFIG kept |
| Mpu6050Fixed.Initialize | MPU6050_RaspbPi.cpp:25-44 | -1 when WHO_AM_I could not be read, -2 when it does not hold 0x68, -3 exactly when configuration began and a call fell short, 0 exactly when WHO_AM_I holds 0x68 and every call completed; no call follows the one that fell short; 0 also means the part runs on the X-gyro PLL, awake, at +/-250 deg/s and +/-2 g in both registers and scales, whatever the bus did |
| Mpu6050Fixed.QueryStep | MPU6050_RaspbPi.cpp:46-150 | a getter or sample call of the corrected driver changes no register and no scale entry, and its calls are disciplined |
| Mpu6050Fixed.RangeStep | MPU6050_RaspbPi.cpp:67-103 | a corrected range setter keeps the scale entries in agreement with the FS_SEL fields of the registers, under any bus behaviour |
| Mpu6050Fixed.Step | MPU6050_RaspbPi.cpp:67-103 | every corrected driver call keeps the scale entries in agreement with the FS_SEL fields of the registers, under any bus behaviour |
| Mpu6050Fixed.Run | MPU6050_RaspbPi.cpp:25-158 | any program of corrected calls keeps the scale entries in agreement with the registers and the bus calls disciplined |
| Mpu6050Fixed.InitializedStaysInSync | MPU6050_RaspbPi.cpp:25-44 | after an initialize that returned 0, every later program divides by the scale the part is actually set to |

## Left out

- **Floating-point conversion** (MPU6050_RaspbPi.cpp:141-149). The division by the scale and the temperature formula `raw / 340 + 36.53` are not modelled; the model stops at signed integer counts and the scale-table entry.
- **DEBUG branches** of the I2C handle are not modelled: error printing, exceptions, and the early return in the DEBUG register read. Only the non-DEBUG code is modelled.
- **POSIX calls** are not executed. `open` and `ioctl` results are parameters, and `read`/`write` outcomes come from the bus's outcome schedule; the mode argument of `ioctl` is not modelled.
- **File-descriptor leak:** when setting the mode fails after a successful open, the descriptor is not closed. The model only carries it in the `ModeFailed` error.
- **Initial sample buffer:** the buffer `new` allocates is indeterminate; the model starts it as 14 zero bytes.
- **Missing return in `initialize`:** running off the end of `initialize` is undefined behaviour in C++. The literal model returns 0 there.
- **Console output of `initialize`:** the "Detected" and "Could no detect" messages (MPU6050_RaspbPi.cpp:33, :37) are not modelled; only the return codes are.
- **SPI handle and `main`:** the SPI handle holds no logic the driver uses, and `main` is a polling and printing loop.
- **MPU6050_RegisterMap.h** is not part of this model. Its constants are taken from the register map document.
- I2CHandle.WriteReg: requires `numBytes + 1 <= 255`. The source does not check this, and a longer write would overflow the scratch buffer, which is undefined behaviour and not modelled.
- I2CHandle.WriteRegExact: requires `numBytes + 1 <= 255` for the same reason.
- Mpu6050.SetClockSource: the register contents after the call are stated for a healthy bus only. Under injected faults the contract states the call sequence and return codes instead.
- Mpu6050.SetFullScaleGyroRange: register contents are stated for a healthy bus only, as for the clock setter.
- Mpu6050.SetFullScaleAccelRange: register contents are stated for a healthy bus only, as for the clock setter.
- Mpu6050.SetSleepEnabled: register contents are stated for a healthy bus only, as for the clock setter.
- Mpu6050.Initialize: the configured register file is stated for a healthy bus only. Under faults the contract states the return codes and the call discipline.

## Findings

| source | as written | input that shows it | evidently intended | confidence | as-written member | corrected member |
|---|---|---|---|---|---|---|
| MPU6050_RaspbPi.cpp:46-58 | the getters take the byte by value after clearing `tempBuffer`, so the setter ORs its field into 0 and writes the field alone | PWR_MGMT_1 = 0x40 (asleep), setClockSource(1) writes 0x01 and wakes the part | read-modify-write: 0x41, the sleep bit kept | high, not executed | Mpu6050.SetClockSourceClearsSleep | Mpu6050Fixed.SetClockSource |
| MPU6050_RaspbPi.cpp:60-80 | the range setters likewise write the FS field alone | GYRO_CONFIG = 0xE0 (self-test on), setFullScaleGyroRange(1) writes 0x08 | 0xE8, the self-test bits kept | high, not executed | Mpu6050.RangeSetterClearsSelfTest | Mpu6050Fixed.SetFullScaleGyroRange |
| MPU6050_RaspbPi.cpp:56 | the merge ORs the field in, so once the held byte is the register it cannot lower a field | held clock 3 merged with code 0 still selects clock 3 | clear the field, then OR: clock 0 | high, not executed | RegisterMap.MergeCannotClearField | RegisterMap.ReplaceClockField |
| MPU6050_RaspbPi.cpp:67-77 | the scale entry is assigned before the register read | latent, the setter is private and `initialize` passes only code 0: read fails: -1 returned, register +/-250 deg/s, scale +/-2000 deg/s | change the scale only after the write succeeded | high, not executed | Mpu6050.ScaleChangesOnFailedSet | Mpu6050Fixed.Run |
| MPU6050_RaspbPi.cpp:69-78 | codes above 3 pick the default scale but their low bits reach FS_SEL | latent, the setter is private and no caller passes code 5: code 5: scale +/-250 deg/s, register +/-500 deg/s | write the FS_SEL code of the table entry chosen, so code 5 gives +/-250 deg/s in both scale and register | medium, not executed | Mpu6050.OutOfTableCodeLeavesScaleBehind | Mpu6050Fixed.SetFullScaleGyroRange |
| MPU6050_RaspbPi.cpp:111 | `tempBuffer[0] && (1U << 6)` tests the whole byte for non-zero | latent, `getSleepEnabled` is private and never called: PWR_MGMT_1 = 0x01 (awake, X-gyro PLL) reads as asleep | bit test `&`: false | high, not executed | Mpu6050.SleepReadMisreadsClockBits | Mpu6050Fixed.GetSleepEnabled |
| MPU6050_RaspbPi.cpp:40-44 | initialize ignores the setters' results and runs off the end | the clock setter's read of PWR_MGMT_1 fails: 0 returned, clock still internal 8 MHz | report the failure | high, not executed | Mpu6050.InitializeIgnoresFailedStep | Mpu6050Fixed.Initialize |
| UNR_BCM2711_I2CHandle.cpp:147 | any write result other than -1 is reported as `numBytes` | a write that moves 1 of 2 bytes returns 1, register unchanged | `numBytes` only when `numBytes + 1` bytes moved | high, not executed | I2CHandle.ShortWriteReportsSuccess | I2CHandle.WriteRegExact |
| UNR_BCM2711_I2CHandle.cpp:187-190 | the read's count is returned as is, and the burst reader only tests for < 0 | a 14-byte burst that moves 0 bytes: getSensorValues returns 1 and swaps the stale buffer | a short read is a failure | high, not executed | Mpu6050.ShortBurstReportsSuccess | Mpu6050Fixed.GetSensorValues |

=== FILE: i2c_handle.dfy ===
/**
 The I2C handle: one open descriptor on a Linux I2C character device, the
 peripheral address it is bound to, and the register transactions built on
 read(2) and write(2).

 The operating system and the peripheral are replaced by a `Bus` value:
 - `faults` schedules what each read or write call does (fail with -1,
   move fewer bytes than asked, or move all of them); once the schedule is
   used up every call moves all its bytes;
 - `chip` is the peripheral's register file and register pointer, which a
   write sets to its first byte and which every transferred byte advances;
 - `trace` records every call issued, with what it returned.
 */
module I2CHandle {

  /** UNR_I2C_MAX_BYTES: size of the scratch buffer a register write is staged in. */
  const MaxBytes: nat := 255
  const DevPath0: string := "/dev/i2c-0"
  const DevPath1: string := "/dev/i2c-1"
  /** I2OCTRL_FAIL: the only ioctl result the handle treats as failure. */
  const IoctlFail: int := -1

  type Scratch = s: seq<bv8> | |s| == MaxBytes witness seq(MaxBytes, _ => 0 as bv8)

  /** What one read or write call on the descriptor does. */
  datatype Outcome = Fail | Short(moved: nat) | Complete

  /** One call issued on the descriptor, with the value it returned. */
  datatype Call =
    | Write(bytes: seq<bv8>, rc: int)
    | Read(count: nat, rc: int, data: seq<bv8>)
    | Close(fd: int)

  /** The peripheral: its registers (an absent key reads as 0x00) and its register pointer. */
  datatype Chip = Chip(regs: map<int, bv8>, pointer: bv8)

  datatype Bus = Bus(fd: int, address: bv8, scratch: Scratch, chip: Chip, faults: seq<Outcome>, trace: seq<Call>)

  /** Result of a write: the value returned and the bus afterwards. */
  datatype Reply = Reply(rc: int, bus: Bus)

  /** Result of a read: the value returned, the caller's buffer afterwards, and the bus. */
  datatype ReadReply = ReadReply(rc: int, buf: seq<bv8>, bus: Bus)

  /** The value of register `a`; the file is keyed by address value, and an absent key reads as 0x00. */
  function Reg(regs: map<int, bv8>, a: bv8): bv8
  {
    if a as int in regs then regs[a as int] else 0
  }

  /** The register i places after `start`, wrapping at 0xFF. */
  function Addr(start: bv8, i: nat): (a: bv8)
    ensures i == 0 ==> a == start
  {
    start + (i % 256) as bv8
  }

  /** The n register values a transfer starting at `start` delivers. */
  function Burst(regs: map<int, bv8>, start: bv8, n: nat): seq<bv8>
  {
    seq(n, i requires 0 <= i < n => Reg(regs, Addr(start, i)))
  }

  /** The register file after `data` is written from `start` on, one register per byte. */
  function StoreBurst(regs: map<int, bv8>, start: bv8, data: seq<bv8>): (r: map<int, bv8>)
    ensures data == [] ==> r == regs
    ensures |data| == 1 ==> r == regs[start as int := data[0]]
    decreases |data|
  {
    if data == [] then regs
    else StoreBurst(regs[start as int := data[0]], Addr(start, 1), data[1..])
  }

  /** What the peripheral latches from the bytes of a write that reached it. */
  function Receive(chip: Chip, got: seq<bv8>): (r: Chip)
    ensures |got| == 1 ==> r == Chip(chip.regs, got[0])
    ensures got != [] ==> r.regs == StoreBurst(chip.regs, got[0], got[1..])
  {
    if got == [] then chip
    else Chip(StoreBurst(chip.regs, got[0], got[1..]), Addr(got[0], |got| - 1))
  }

  predicate Healthy(b: Bus)
  {
    b.faults == []
  }

  function Pending(faults: seq<Outcome>): Outcome
  {
    if faults == [] then Complete else faults[0]
  }

  function Consume(faults: seq<Outcome>): seq<Outcome>
  {
    if faults == [] then [] else faults[1..]
  }

  /** The value read(2) or write(2) returns when asked to move n bytes. */
  function Moved(o: Outcome, n: nat): (rc: int)
    ensures rc == -1 <==> o == Fail
    ensures -1 <= rc <= n
    ensures o == Complete ==> rc == n
  {
    match o
    case Fail => -1
    case Short(k) => if k < n then k else n
    case Complete => n
  }

  /** write(2) of `frame` on the descriptor. */
  function SysWrite(b: Bus, frame: seq<bv8>): (r: Reply)
    ensures r.rc == |frame| ==> r.bus.chip == Receive(b.chip, frame)
  {
    var rc := Moved(Pending(b.faults), |frame|);
    var got := if rc < 0 then [] else frame[..rc];
    assert rc == |frame| ==> got == frame;
    Reply(rc, b.(chip := Receive(b.chip, got), faults := Consume(b.faults), trace := b.trace + [Write(frame, rc)]))
  }

  /** read(2) of n bytes on the descriptor; `buf` of the reply holds the bytes delivered. */
  function SysRead(b: Bus, n: nat): (r: ReadReply)
  {
    var rc := Moved(Pending(b.faults), n);
    var data := if rc < 0 then [] else Burst(b.chip.regs, b.chip.pointer, rc);
    var pointer := if rc < 0 then b.chip.pointer else Addr(b.chip.pointer, rc);
    ReadReply(rc, data, b.(chip := b.chip.(pointer := pointer), faults := Consume(b.faults), trace := b.trace + [Read(n, rc, data)]))
  }

  /** The later bus carries on from the earlier one: same descriptor and address, trace extended. */
  predicate Extends(b: Bus, b': Bus)
  {
    b.trace <= b'.trace && b'.fd == b.fd && b'.address == b.address
  }

  /** The calls issued between two states of the bus. */
  function NewCalls(b: Bus, b': Bus): seq<Call>
    requires |b.trace| <= |b'.trace|
  {
    b'.trace[|b.trace|..]
  }

  /** The calls issued across two steps are those of the first step, then those of the second. */
  lemma NewCallsSplit(a: Bus, b: Bus, c: Bus)
    requires a.trace <= b.trace && b.trace <= c.trace
    ensures NewCalls(a, c) == NewCalls(a, b) + NewCalls(b, c)
  {
    assert c.trace[..|b.trace|] == b.trace;
  }

  /** A one-byte write: it sets the peripheral's register pointer. */
  predicate PointerWrite(c: Call, reg: bv8)
  {
    c.Write? && c.bytes == [reg]
  }

  /**
   The calls of one register read of n bytes at `reg`: the one-byte pointer
   write, then, only if that write moved a byte, the read of n bytes.
   */
  predicate RegRead(calls: seq<Call>, reg: bv8, n: nat)
  {
    && 1 <= |calls| <= 2
    && PointerWrite(calls[0], reg)
    && (|calls| == 2 <==> calls[0].rc > 0)
    && (|calls| == 2 ==> calls[1].Read? && calls[1].count == n)
  }

  /** What a register read made of `calls` returns: the read's own value, or -1 without one. */
  function RegReadRc(calls: seq<Call>): int
    requires 1 <= |calls|
  {
    if |calls| == 2 && calls[1].Read? then calls[1].rc else -1
  }

  /** A call that did all it was asked: a write moved every byte, a read delivered its full count. */
  predicate Completed(c: Call)
  {
    match c
    case Write(bytes, rc) => rc == |bytes|
    case Read(count, rc, _) => rc == count
    case Close(_) => true
  }

  predicate AllCompleted(t: seq<Call>)
  {
    forall i :: 0 <= i < |t| ==> Completed(t[i])
  }

  /** Nothing was issued after a call that fell short: either all calls completed, or only the last did not. */
  predicate StopsAtFailure(t: seq<Call>)
  {
    || AllCompleted(t)
    || (|t| > 0 && AllCompleted(t[..|t| - 1]) && !Completed(t[|t| - 1]))
  }

  /** After a completed run, a run that stops at its failure still does so, and completes iff the second part does. */
  lemma CompletionConcat(a: seq<Call>, b: seq<Call>)
    requires AllCompleted(a)
    ensures AllCompleted(a + b) <==> AllCompleted(b)
    ensures StopsAtFailure(b) ==> StopsAtFailure(a + b)
  {
    var t := a + b;
    assert forall i :: 0 <= i < |b| ==> t[|a| + i] == b[i];
    if b != [] {
      assert t[..|t| - 1] == a + b[..|b| - 1];
      assert t[|t| - 1] == b[|b| - 1];
    }
  }

  /** The frame i2c_writeReg stages: register address, data, zeros to the end. */
  function Preload(reg: bv8, data: seq<bv8>): (s: Scratch)
    requires |data| + 1 <= MaxBytes
    ensures s[..|data| + 1] == [reg] + data
    ensures forall i :: |data| < i < MaxBytes ==> s[i] == 0
  {
    [reg] + data + seq(MaxBytes - 1 - |data|, _ => 0 as bv8)
  }

  /**
   i2c_writeReg: one write of the register address followed by the data.
   The frame is staged in the 255-byte scratch buffer, which is why the
   data must leave room for the address byte. The value returned is -1 when
   the write call failed and the data length otherwise, even when the call
   moved fewer bytes.
   */
  function WriteReg(b: Bus, reg: bv8, data: seq<bv8>): (r: Reply)
    requires |data| + 1 <= MaxBytes
    ensures Extends(b, r.bus) && |r.bus.trace| == |b.trace| + 1
    ensures r.bus.trace[|b.trace|].Write? && r.bus.trace[|b.trace|].bytes == [reg] + data
    ensures r.rc == -1 <==> r.bus.trace[|b.trace|].rc == -1
    ensures r.rc != -1 ==> r.rc == |data|
    ensures r.bus.scratch[0] == reg && r.bus.scratch[1..|data| + 1] == data
    ensures Healthy(b) ==> Healthy(r.bus) && r.rc == |data| && r.bus.chip.regs == StoreBurst(b.chip.regs, reg, data)
  {
    var s := Preload(reg, data);
    assert s[1..|data| + 1] == ([reg] + data)[1..];
    var frame := s[..|data| + 1];
    assert frame[0] == reg && frame[1..] == data;
    var w := SysWrite(b.(scratch := s), frame);
    Reply(if w.rc == -1 then -1 else |data|, w.bus)
  }

  /**
   i2c_readReg: write the one-byte register pointer; only if that write
   moved a byte, read into the caller's buffer and return the read's value
   unchanged, so a short read returns a count below the buffer's length.
   Bytes beyond the count keep what the buffer held.
   */
  function ReadReg(b: Bus, reg: bv8, buf: seq<bv8>): (r: ReadReply)
    ensures Extends(b, r.bus) && |r.buf| == |buf|
    ensures RegRead(NewCalls(b, r.bus), reg, |buf|) && r.rc == RegReadRc(NewCalls(b, r.bus))
    ensures r.rc < 0 ==> r.rc == -1 && r.buf == buf
    ensures r.rc >= 0 ==> r.rc <= |buf| && r.buf == Burst(b.chip.regs, reg, r.rc) + buf[r.rc..]
    ensures r.rc >= 0 ==> NewCalls(b, r.bus)[1].data == r.buf[..r.rc]
    ensures r.bus.chip.regs == b.chip.regs
    ensures Healthy(b) ==> Healthy(r.bus) && r.rc == |buf| && r.buf == Burst(b.chip.regs, reg, |buf|)
  {
    var w := SysWrite(b, [reg]);
    assert NewCalls(b, w.bus) == [Write([reg], w.rc)];
    if w.rc > 0 then
      assert w.bus.chip.pointer == reg;
      var rd := SysRead(w.bus, |buf|);
      assert NewCalls(b, rd.bus) == [Write([reg], w.rc), Read(|buf|, rd.rc, rd.buf)];
      ReadReply(rd.rc, if rd.rc < 0 then buf else rd.buf + buf[rd.rc..], rd.bus)
    else
      ReadReply(-1, buf, w.bus)
  }

  /**
   i2c_write_simple: one write of the caller's bytes with no register
   address; -1 when the call failed, the byte count otherwise.
   */
  function WriteSimple(b: Bus, data: seq<bv8>): (r: Reply)
    ensures Extends(b, r.bus) && |r.bus.trace| == |b.trace| + 1
    ensures r.bus.trace[|b.trace|].Write? && r.bus.trace[|b.trace|].bytes == data
    ensures r.rc == -1 <==> r.bus.trace[|b.trace|].rc == -1
    ensures r.rc != -1 ==> r.rc == |data|
  {
    var w := SysWrite(b, data);
    Reply(if w.rc == -1 then -1 else |data|, w.bus)
  }

  /**
   i2c_read_simple: one read into the caller's buffer with no register
   pointer write; -1 when the call failed, the buffer length otherwise,
   even when fewer bytes arrived.
   */
  function ReadSimple(b: Bus, buf: seq<bv8>): (r: ReadReply)
    ensures Extends(b, r.bus) && |r.bus.trace| == |b.trace| + 1 && |r.buf| == |buf|
    ensures r.bus.trace[|b.trace|].Read? && r.bus.trace[|b.trace|].count == |buf|
    ensures r.rc == -1 <==> r.bus.trace[|b.trace|].rc == -1
    ensures r.rc != -1 ==> r.rc == |buf|
    ensures r.rc == -1 ==> r.buf == buf
    ensures r.rc != -1 ==> |r.bus.trace[|b.trace|].data| <= |buf| && r.buf[..|r.bus.trace[|b.trace|].data|] == r.bus.trace[|b.trace|].data
  {
    var rd := SysRead(b, |buf|);
    if rd.rc == -1 then ReadReply(-1, buf, rd.bus)
    else ReadReply(|buf|, rd.buf + buf[|rd.buf|..], rd.bus)
  }

  /**
   A plain write of [register] ++ data issues the call i2c_writeReg issues
   and leaves the peripheral, the schedule and the trace as it does; only
   the scratch buffer and the count reported (the frame length, not the
   data length) differ.
   */
  lemma SimpleWriteIsRegisterWrite(b: Bus, reg: bv8, data: seq<bv8>)
    requires |data| + 1 <= MaxBytes
    ensures WriteSimple(b, [reg] + data).bus == WriteReg(b, reg, data).bus.(scratch := b.scratch)
    ensures WriteSimple(b, [reg] + data).rc == -1 <==> WriteReg(b, reg, data).rc == -1
    ensures WriteSimple(b, [reg] + data).rc != -1 ==> WriteSimple(b, [reg] + data).rc == WriteReg(b, reg, data).rc + 1
  {
    var s := Preload(reg, data);
    assert s[..|data| + 1] == [reg] + data;
  }

  /**
   i2c_readReg assembled from the plain calls: once the plain write of the
   register address moved its byte, a plain read leaves the same bus and
   the same buffer as a register read, and fails exactly when it does. On a
   healthy bus the pair delivers the registers from `reg` on.
   */
  lemma SimpleCallsMakeRegisterRead(b: Bus, reg: bv8, buf: seq<bv8>)
    ensures var w := WriteSimple(b, [reg]);
      w.bus.trace[|b.trace|].rc > 0 ==>
        && ReadSimple(w.bus, buf).bus == ReadReg(b, reg, buf).bus
        && ReadSimple(w.bus, buf).buf == ReadReg(b, reg, buf).buf
        && (ReadSimple(w.bus, buf).rc == -1 <==> ReadReg(b, reg, buf).rc == -1)
    ensures Healthy(b) ==>
      && WriteSimple(b, [reg]).rc == 1
      && ReadSimple(WriteSimple(b, [reg]).bus, buf).rc == |buf|
      && ReadSimple(WriteSimple(b, [reg]).bus, buf).buf == Burst(b.chip.regs, reg, |buf|)
  {
    var w := SysWrite(b, [reg]);
    if w.rc > 0 {
      assert w.bus.chip.pointer == reg;
      var rd := SysRead(w.bus, |buf|);
      if rd.rc >= 0 {
        assert |rd.buf| == rd.rc;
      }
    }
  }

  datatype BusError = OpenFailed(path: string) | ModeFailed(path: string, leakedFd: int)

  datatype Opened = Ready(bus: Bus) | Refused(error: BusError)

  /** The device node an instance selects: 0 selects i2c-0, every other value i2c-1. */
  function DevicePath(instance: bv8): (path: string)
    ensures path == DevPath0 <==> instance == 0
    ensures path == DevPath0 || path == DevPath1
  {
    match instance
    case 0 => DevPath0
    case 1 => DevPath1
    case _ => DevPath1
  }

  /**
   The handle's constructor: open the device node (the descriptor open(2)
   returns is `openFd`), then set the addressing mode with ioctl(2) (which
   returns `ioctlRc`). A negative descriptor or an ioctl result of -1 abort
   construction; the descriptor already opened when the ioctl fails is not
   closed, so the error carries it.
   */
  function Open(instance: bv8, address: bv8, openFd: int, ioctlRc: int, chip: Chip, faults: seq<Outcome>): (r: Opened)
    ensures r.Ready? <==> openFd >= 0 && ioctlRc != IoctlFail
    ensures r.Ready? ==> r.bus.fd == openFd && r.bus.address == address && r.bus.trace == []
    ensures r.Ready? ==> forall i :: 0 <= i < MaxBytes ==> r.bus.scratch[i] == 0
    ensures openFd < 0 ==> r.error == OpenFailed(DevicePath(instance))
    ensures openFd >= 0 && ioctlRc == IoctlFail ==> r.error == ModeFailed(DevicePath(instance), openFd)
  {
    var path := DevicePath(instance);
    if openFd < 0 then Refused(OpenFailed(path))
    else if ioctlRc == IoctlFail then Refused(ModeFailed(path, openFd))
    else Ready(Bus(openFd, address, seq(MaxBytes, _ => 0 as bv8), chip, faults, []))
  }

  /**
   The handle's destructor: close the descriptor unless it is 0, then zero
   the descriptor and the address.
   */
  function Release(b: Bus): (r: Bus)
    ensures r.fd == 0 && r.address == 0 && r.chip == b.chip
    ensures b.fd != 0 ==> r.trace == b.trace + [Close(b.fd)]
    ensures b.fd == 0 ==> r.trace == b.trace
  {
    if b.fd != 0 then b.(fd := 0, address := 0, trace := b.trace + [Close(b.fd)])
    else b.(address := 0)
  }

  /** Releasing twice issues no second close. */
  lemma ReleaseTwice(b: Bus)
    ensures Release(Release(b)) == Release(b)
  {
  }

  /** How many close calls a trace holds. */
  function Closes(t: seq<Call>): nat
  {
    if t == [] then 0 else Closes(t[..|t| - 1]) + (if t[|t| - 1].Close? then 1 else 0)
  }

  /** However often teardown runs, it adds at most one close. */
  lemma {:induction false} ReleaseClosesOnce(b: Bus, k: nat)
    ensures Closes(ReleaseN(b, k).trace) <= Closes(b.trace) + 1
    ensures k > 0 ==> ReleaseN(b, k) == Release(b)
  {
    if k > 1 {
      ReleaseClosesOnce(b, k - 1);
      ReleaseTwice(b);
    } else if k == 1 {
      if b.fd != 0 {
        assert Release(b).trace[..|Release(b).trace| - 1] == b.trace;
      }
    }
  }

  function ReleaseN(b: Bus, k: nat): Bus
  {
    if k == 0 then b else Release(ReleaseN(b, k - 1))
  }

  /** A write that moved at least its one pointer byte. */
  predicate PointerSet(c: Call)
  {
    c.Write? && |c.bytes| == 1 && c.rc > 0
  }

  /** A write that carries data after the register address. */
  predicate DataWrite(c: Call)
  {
    c.Write? && |c.bytes| > 1
  }

  /** Every read comes right after a pointer write that moved its byte. */
  predicate ReadsFollowPointer(t: seq<Call>)
  {
    forall i :: 0 <= i < |t| && t[i].Read? ==> 0 < i && PointerSet(t[i - 1])
  }

  /** Every data write comes right after a read that did not fail. */
  predicate WritesFollowRead(t: seq<Call>)
  {
    forall i :: 0 <= i < |t| && DataWrite(t[i]) ==> 0 < i && t[i - 1].Read? && t[i - 1].rc >= 0
  }

  predicate Disciplined(t: seq<Call>)
  {
    ReadsFollowPointer(t) && WritesFollowRead(t)
  }

  /** The calls open with a one-byte pointer write. */
  predicate Opening(t: seq<Call>)
  {
    |t| > 0 && t[0].Write? && |t[0].bytes| == 1
  }

  /** Every register read is disciplined and opens with its pointer write. */
  lemma RegReadDisciplined(calls: seq<Call>, reg: bv8, n: nat)
    requires RegRead(calls, reg, n)
    ensures Disciplined(calls) && Opening(calls)
  {
  }

  /** Joining two disciplined runs keeps discipline when the second opens with a pointer write. */
  lemma DisciplineConcat(a: seq<Call>, b: seq<Call>)
    requires Disciplined(a) && Disciplined(b) && Opening(b)
    ensures Disciplined(a + b) && (Opening(a) ==> Opening(a + b))
  {
    var t := a + b;
    forall i | 0 <= i < |t| && t[i].Read?
      ensures 0 < i && PointerSet(t[i - 1])
    {
      if i >= |a| {
        assert b[i - |a|].Read?;
      }
    }
    forall i | 0 <= i < |t| && DataWrite(t[i])
      ensures 0 < i && t[i - 1].Read? && t[i - 1].rc >= 0
    {
      if i >= |a| {
        assert DataWrite(b[i - |a|]);
      }
    }
  }

  /**
   A write the call moved only partly still returns the full data length:
   of a two-byte frame only the pointer byte arrives, the register keeps
   its value, and the caller is told one data byte was written.
   */
  lemma ShortWriteReportsSuccess(b: Bus, reg: bv8, v: bv8)
    requires b.faults == [Short(1)] && Reg(b.chip.regs, reg) != v
    ensures WriteReg(b, reg, [v]).rc == 1
    ensures Reg(WriteReg(b, reg, [v]).bus.chip.regs, reg) != v
  {
  }

  /**
   i2c_writeReg with its result checked: -1 unless the write call moved the
   address byte and every data byte.
   */
  function WriteRegExact(b: Bus, reg: bv8, data: seq<bv8>): (r: Reply)
    requires |data| + 1 <= MaxBytes
    ensures Extends(b, r.bus) && |r.bus.trace| == |b.trace| + 1
    ensures r.bus.trace[|b.trace|].Write? && r.bus.trace[|b.trace|].bytes == [reg] + data
    ensures r.rc == -1 || r.rc == |data|
    ensures r.rc == |data| <==> r.bus.trace[|b.trace|].rc == |data| + 1
    ensures r.rc == |data| <==> AllCompleted(NewCalls(b, r.bus))
    ensures StopsAtFailure(NewCalls(b, r.bus))
    ensures r.rc == |data| ==> r.bus.chip.regs == StoreBurst(b.chip.regs, reg, data)
    ensures |data| == 1 && r.rc == -1 ==> r.bus.chip.regs == b.chip.regs
    ensures Healthy(b) ==> Healthy(r.bus) && r.rc == |data|
  {
    var s := Preload(reg, data);
    var frame := s[..|data| + 1];
    assert frame[0] == reg && frame[1..] == data;
    var w := SysWrite(b.(scratch := s), frame);
    assert NewCalls(b, w.bus) == [Write(frame, w.rc)];
    Reply(if w.rc == |data| + 1 then |data| else -1, w.bus)
  }

  /** i2c_readReg with its result checked: -1 unless all n bytes arrived. */
  function ReadRegExact(b: Bus, reg: bv8, buf: seq<bv8>): (r: ReadReply)
    ensures Extends(b, r.bus) && |r.buf| == |buf|
    ensures RegRead(NewCalls(b, r.bus), reg, |buf|)
    ensures r.rc == -1 || r.rc == |buf|
    ensures r.rc == |buf| <==> RegReadRc(NewCalls(b, r.bus)) == |buf|
    ensures r.rc == |buf| ==> r.buf == Burst(b.chip.regs, reg, |buf|)
    ensures r.rc == |buf| <==> AllCompleted(NewCalls(b, r.bus))
    ensures StopsAtFailure(NewCalls(b, r.bus))
    ensures r.bus.chip.regs == b.chip.regs
    ensures Healthy(b) ==> Healthy(r.bus) && r.rc == |buf|
  {
    var rd := ReadReg(b, reg, buf);
    PointerWriteMovesAtMostOne(b, reg, buf);
    if rd.rc == |buf| then rd else rd.(rc := -1)
  }

  /** The pointer write of a register read moves at most its one byte, so it completed iff the read was issued. */
  lemma PointerWriteMovesAtMostOne(b: Bus, reg: bv8, buf: seq<bv8>)
    ensures NewCalls(b, ReadReg(b, reg, buf).bus)[0].rc <= 1
  {
    var w := SysWrite(b, [reg]);
    assert NewCalls(b, w.bus) == [Write([reg], w.rc)];
    if w.rc > 0 {
      var rd := SysRead(w.bus, |buf|);
      assert NewCalls(b, rd.bus) == [Write([reg], w.rc), Read(|buf|, rd.rc, rd.buf)];
    }
  }
}

=== FILE: mpu6050.dfy ===
/**
 The MPU-6050 driver as written: configuration getters and setters, the
 identity check of initialize, and the burst read of the fourteen output
 registers with its decoding into signed counts.

 The driver object is an I2C handle plus a two-byte scratch pair
 (`held`, `staged`), the register the last transaction addressed, the burst
 start register, the scale entries chosen for each sensor, and the
 fourteen-byte sample buffer. Every operation is a function from the
 driver state to its return value and the next state.
 */
module Mpu6050 {
  import opened RegisterMap
  import opened SampleCodec
  import opened I2CHandle

  /** RPI4_I2C_INSTANCE1: the bus instance every driver object opens. */
  const BusInstance: bv8 := 1

  /** The one-byte length of every configuration transaction. */
  const SingleByte: nat := 1

  datatype Mpu = Mpu(
    bus: Bus,
    held: bv8,          // tempBuffer[0]
    staged: bv8,        // tempBuffer[1]
    accessReg: bv8,     // accessRegisterID
    burstReg: bv8,      // accessSensorValuesRegister
    gyro: GyroRange,    // gyroScale, as the table entry it was chosen from
    accel: AccelRange,  // accelScale, likewise
    sample: Raw)        // *m_sensorvalues

  datatype Status = Status(rc: int, mpu: Mpu)

  datatype Flag = Flag(value: bool, mpu: Mpu)

  /**
   What getDoubleSensorValues hands back: its return value, the signed
   counts it divides, the scale entries it divides them by, and the state.
   */
  datatype Reading = Reading(rc: int, counts: Counts, accel: AccelRange, gyro: GyroRange, mpu: Mpu)

  datatype Built = Built(mpu: Mpu) | NotBuilt(error: BusError)

  /** The calls a transaction issued between two driver states. */
  function Calls(m: Mpu, m': Mpu): seq<Call>
    requires |m.bus.trace| <= |m'.bus.trace|
  {
    NewCalls(m.bus, m'.bus)
  }

  /** A one-byte register read that did not deliver: nothing follows it. */
  predicate FailedRead(calls: seq<Call>, reg: bv8)
  {
    RegRead(calls, reg, SingleByte) && RegReadRc(calls) < 0
  }

  /** A one-byte register read that did not fail, then one write of `v` to the same register. */
  predicate ReadThenWrite(calls: seq<Call>, reg: bv8, v: bv8)
  {
    && |calls| == 3
    && RegRead(calls[..2], reg, SingleByte) && RegReadRc(calls[..2]) >= 0
    && calls[2].Write? && calls[2].bytes == [reg, v]
  }

  /** The byte a one-byte read leaves in a zeroed byte: the byte received, or 0 when none came. */
  function Received(c: Call): bv8
  {
    if c.Read? && c.rc > 0 && |c.data| > 0 then c.data[0] else 0
  }

  lemma FailedReadDisciplined(calls: seq<Call>, reg: bv8)
    requires FailedRead(calls, reg)
    ensures Disciplined(calls) && Opening(calls)
  {
  }

  lemma ReadThenWriteDisciplined(calls: seq<Call>, reg: bv8, v: bv8)
    requires ReadThenWrite(calls, reg, v)
    ensures Disciplined(calls) && Opening(calls)
  {
    assert calls[1] == calls[..2][1];
  }

  /**
   The constructor: open bus instance 1 at `devAddress` (an open or mode
   failure aborts construction), select the +/-250 deg/s and +/-2 g scale
   entries, start bursts at ACCEL_XOUT_H and clear the scratch pair.
   */
  function Construct(devAddress: bv8, openFd: int, ioctlRc: int, chip: Chip, faults: seq<Outcome>): (r: Built)
    ensures r.Built? <==> openFd >= 0 && ioctlRc != IoctlFail
    ensures r.NotBuilt? ==> r.error.path == DevPath1
    ensures r.Built? ==> r.mpu.bus.address == devAddress && r.mpu.bus.trace == [] && r.mpu.bus.chip == chip
    ensures r.Built? ==> r.mpu.gyro == Dps250 && r.mpu.accel == G2 && r.mpu.burstReg == ACCEL_XOUT_H
    ensures r.Built? ==> r.mpu.held == 0 && r.mpu.staged == 0 && r.mpu.accessReg == 0
  {
    match Open(BusInstance, devAddress, openFd, ioctlRc, chip, faults)
    case Refused(e) => NotBuilt(e)
    case Ready(bus) =>
      Built(Mpu(bus, 0, 0, 0, ACCEL_XOUT_H, GyroScaleFor(GYRO_FS_250), AccelScaleFor(ACCEL_FS_2), SampleZeros()))
  }

  function SampleZeros(): Raw
  {
    [0, 0, 0, 0, 0, 0, 0, 0, 0, 0, 0, 0, 0, 0]
  }

  /** The destructor: release the sample buffer, then the handle's teardown. */
  function Destroy(m: Mpu): (b: Bus)
    ensures b.fd == 0 && b.address == 0
    ensures m.bus.fd != 0 ==> b.trace == m.bus.trace + [Close(m.bus.fd)]
    ensures m.bus.fd == 0 ==> b.trace == m.bus.trace
  {
    Release(m.bus)
  }

  /**
   The body every configuration getter shares: clear the scratch pair, make
   `reg` the addressed register, and read one byte of it. The getters take
   their byte by value, so the byte read lands in a copy and is discarded:
   only the return value of the read comes back.
   */
  function Probe(m: Mpu, reg: bv8): (r: Status)
    ensures r.mpu == m.(bus := r.mpu.bus, held := 0, staged := 0, accessReg := reg)
    ensures Extends(m.bus, r.mpu.bus) && r.mpu.bus.chip.regs == m.bus.chip.regs
    ensures RegRead(Calls(m, r.mpu), reg, SingleByte) && r.rc == RegReadRc(Calls(m, r.mpu))
    ensures Healthy(m.bus) ==> Healthy(r.mpu.bus) && r.rc == 1
  {
    var rd := ReadReg(m.bus, reg, [m.held]);
    Status(rd.rc, m.(bus := rd.bus, held := 0, staged := 0, accessReg := reg))
  }

  function GetClockSource(m: Mpu): (r: Status)
    ensures r.mpu.held == 0 && r.mpu.accessReg == PWR_MGMT_1 && Extends(m.bus, r.mpu.bus)
    ensures RegRead(Calls(m, r.mpu), PWR_MGMT_1, SingleByte) && r.rc == RegReadRc(Calls(m, r.mpu))
    ensures Healthy(m.bus) ==> r.rc == 1
  {
    Probe(m, PWR_MGMT_1)
  }

  function GetFullScaleGyroRange(m: Mpu): (r: Status)
    ensures r.mpu.held == 0 && r.mpu.accessReg == GYRO_CONFIG && Extends(m.bus, r.mpu.bus)
    ensures RegRead(Calls(m, r.mpu), GYRO_CONFIG, SingleByte) && r.rc == RegReadRc(Calls(m, r.mpu))
    ensures Healthy(m.bus) ==> r.rc == 1
  {
    Probe(m, GYRO_CONFIG)
  }

  function GetFullScaleAccelRange(m: Mpu): (r: Status)
    ensures r.mpu.held == 0 && r.mpu.accessReg == ACCEL_CONFIG && Extends(m.bus, r.mpu.bus)
    ensures RegRead(Calls(m, r.mpu), ACCEL_CONFIG, SingleByte) && r.rc == RegReadRc(Calls(m, r.mpu))
    ensures Healthy(m.bus) ==> r.rc == 1
  {
    Probe(m, ACCEL_CONFIG)
  }

  /**
   The second half of every setter: stage `held | field` and write it, one
   byte, to the addressed register.
   */
  function OrWrite(m: Mpu, field: bv8): (r: Status)
    ensures r.mpu == m.(bus := r.mpu.bus, staged := Merge(m.held, field))
    ensures Extends(m.bus, r.mpu.bus) && |r.mpu.bus.trace| == |m.bus.trace| + 1
    ensures Calls(m, r.mpu) == [r.mpu.bus.trace[|m.bus.trace|]]
    ensures Calls(m, r.mpu)[0].Write? && Calls(m, r.mpu)[0].bytes == [m.accessReg, Merge(m.held, field)]
    ensures r.rc == -1 <==> Calls(m, r.mpu)[0].rc == -1
    ensures r.rc == -1 || r.rc == 1
    ensures Healthy(m.bus) ==> Healthy(r.mpu.bus) && r.rc == 1
    ensures Healthy(m.bus) ==> r.mpu.bus.chip.regs == m.bus.chip.regs[m.accessReg as int := Merge(m.held, field)]
  {
    var staged := Merge(m.held, field);
    var w := WriteReg(m.bus, m.accessReg, [staged]);
    Status(w.rc, m.(bus := w.bus, staged := staged))
  }

  /** Shared proof for the three setters: a probe, then a write only if the probe delivered. */
  lemma ProbeThenWrite(m: Mpu, g: Status, r: Status, reg: bv8, field: bv8)
    requires g == Probe(m, reg)
    requires r == (if g.rc < 0 then Status(-1, g.mpu) else OrWrite(g.mpu, field))
    ensures Extends(m.bus, r.mpu.bus)
    ensures (r.rc == -1 && FailedRead(Calls(m, r.mpu), reg))
         || (ReadThenWrite(Calls(m, r.mpu), reg, field) && (r.rc == -1 <==> Calls(m, r.mpu)[2].rc == -1))
    ensures Disciplined(Calls(m, r.mpu)) && Opening(Calls(m, r.mpu))
  {
    if g.rc < 0 {
      FailedReadDisciplined(Calls(m, r.mpu), reg);
    } else {
      NewCallsSplit(m.bus, g.mpu.bus, r.mpu.bus);
      var calls := Calls(m, r.mpu);
      assert calls[..2] == Calls(m, g.mpu);
      assert Merge(0, field) == field;
      ReadThenWriteDisciplined(calls, reg, field);
    }
  }

  /**
   setClockSource: probe PWR_MGMT_1, and only if that did not fail write
   `tempBuffer[0] | (source & 0b111)`. The probe cleared tempBuffer[0] and
   did not refill it, so the byte written is the clock field alone: every
   other bit of PWR_MGMT_1, the SLEEP bit included, is written as 0.
   */
  function SetClockSource(m: Mpu, source: bv8): (r: Status)
    ensures Extends(m.bus, r.mpu.bus) && r.mpu.accessReg == PWR_MGMT_1
    ensures r.mpu.gyro == m.gyro && r.mpu.accel == m.accel && r.mpu.sample == m.sample && r.mpu.burstReg == m.burstReg
    ensures (r.rc == -1 && FailedRead(Calls(m, r.mpu), PWR_MGMT_1))
         || (ReadThenWrite(Calls(m, r.mpu), PWR_MGMT_1, ClockField(source)) && (r.rc == -1 <==> Calls(m, r.mpu)[2].rc == -1))
    ensures r.rc == -1 || r.rc == 1
    ensures Disciplined(Calls(m, r.mpu)) && Opening(Calls(m, r.mpu))
    ensures Healthy(m.bus) ==> Healthy(r.mpu.bus) && r.rc == 1
    ensures Healthy(m.bus) ==> r.mpu.bus.chip.regs == m.bus.chip.regs[PWR_MGMT_1 as int := ClockField(source)]
  {
    var g := GetClockSource(m);
    var r := if g.rc < 0 then Status(-1, g.mpu) else OrWrite(g.mpu, ClockField(source));
    ProbeThenWrite(m, g, r, PWR_MGMT_1, ClockField(source));
    r
  }

  /**
   setFullScaleGyroRange: choose the scale entry from the code first, then
   probe GYRO_CONFIG, and only if that did not fail write
   `tempBuffer[0] | ((code << 3) & 0b00011000)`, which is the FS_SEL field
   alone. The scale entry is kept even when the call fails.
   */
  function SetFullScaleGyroRange(m: Mpu, code: bv8): (r: Status)
    ensures Extends(m.bus, r.mpu.bus) && r.mpu.accessReg == GYRO_CONFIG
    ensures r.mpu.gyro == GyroScaleFor(code)
    ensures r.mpu.accel == m.accel && r.mpu.sample == m.sample && r.mpu.burstReg == m.burstReg
    ensures (r.rc == -1 && FailedRead(Calls(m, r.mpu), GYRO_CONFIG))
         || (ReadThenWrite(Calls(m, r.mpu), GYRO_CONFIG, FsField(code, GCONFIG_FS_SEL_BIT)) && (r.rc == -1 <==> Calls(m, r.mpu)[2].rc == -1))
    ensures r.rc == -1 || r.rc == 1
    ensures Disciplined(Calls(m, r.mpu)) && Opening(Calls(m, r.mpu))
    ensures Healthy(m.bus) ==> Healthy(r.mpu.bus) && r.rc == 1
    ensures Healthy(m.bus) ==> r.mpu.bus.chip.regs == m.bus.chip.regs[GYRO_CONFIG as int := FsField(code, GCONFIG_FS_SEL_BIT)]
  {
    var m1 := m.(gyro := GyroScaleFor(code));
    var g := GetFullScaleGyroRange(m1);
    var r := if g.rc < 0 then Status(-1, g.mpu) else OrWrite(g.mpu, FsField(code, GCONFIG_FS_SEL_BIT));
    ProbeThenWrite(m1, g, r, GYRO_CONFIG, FsField(code, GCONFIG_FS_SEL_BIT));
    r
  }

  /** setFullScaleAccelRange: as the gyro setter, on ACCEL_CONFIG and the accel table. */
  function SetFullScaleAccelRange(m: Mpu, code: bv8): (r: Status)
    ensures Extends(m.bus, r.mpu.bus) && r.mpu.accessReg == ACCEL_CONFIG
    ensures r.mpu.accel == AccelScaleFor(code)
    ensures r.mpu.gyro == m.gyro && r.mpu.sample == m.sample && r.mpu.burstReg == m.burstReg
    ensures (r.rc == -1 && FailedRead(Calls(m, r.mpu), ACCEL_CONFIG))
         || (ReadThenWrite(Calls(m, r.mpu), ACCEL_CONFIG, FsField(code, ACONFIG_AFS_SEL_BIT)) && (r.rc == -1 <==> Calls(m, r.mpu)[2].rc == -1))
    ensures r.rc == -1 || r.rc == 1
    ensures Disciplined(Calls(m, r.mpu)) && Opening(Calls(m, r.mpu))
    ensures Healthy(m.bus) ==> Healthy(r.mpu.bus) && r.rc == 1
    ensures Healthy(m.bus) ==> r.mpu.bus.chip.regs == m.bus.chip.regs[ACCEL_CONFIG as int := FsField(code, ACONFIG_AFS_SEL_BIT)]
  {
    var m1 := m.(accel := AccelScaleFor(code));
    var g := GetFullScaleAccelRange(m1);
    var r := if g.rc < 0 then Status(-1, g.mpu) else OrWrite(g.mpu, FsField(code, ACONFIG_AFS_SEL_BIT));
    ProbeThenWrite(m1, g, r, ACCEL_CONFIG, FsField(code, ACONFIG_AFS_SEL_BIT));
    r
  }

  /**
   Clear the scratch pair, make `reg` the addressed register and read it
   into tempBuffer[0], which keeps 0 when no byte arrives.
   */
  function Fetch(m: Mpu, reg: bv8): (r: Status)
    ensures r.mpu == m.(bus := r.mpu.bus, held := r.mpu.held, staged := 0, accessReg := reg)
    ensures Extends(m.bus, r.mpu.bus) && r.mpu.bus.chip.regs == m.bus.chip.regs
    ensures RegRead(Calls(m, r.mpu), reg, SingleByte) && r.rc == RegReadRc(Calls(m, r.mpu))
    ensures r.rc < 0 ==> r.mpu.held == 0
    ensures r.rc >= 0 ==> r.mpu.held == Received(Calls(m, r.mpu)[1])
    ensures Healthy(m.bus) ==> Healthy(r.mpu.bus) && r.rc == 1 && r.mpu.held == Reg(m.bus.chip.regs, reg)
  {
    var rd := ReadReg(m.bus, reg, [0]);
    Status(rd.rc, m.(bus := rd.bus, held := rd.buf[0], staged := 0, accessReg := reg))
  }

  /**
   getSleepEnabled: read PWR_MGMT_1 into tempBuffer[0] and return false if
   the read failed. Otherwise it returns `tempBuffer[0] && (1 << 6)`, a
   logical AND whose right operand is always true: the result is whether
   the whole register byte is nonzero, not whether bit 6 is set.
   */
  function GetSleepEnabled(m: Mpu): (r: Flag)
    ensures Extends(m.bus, r.mpu.bus) && r.mpu.accessReg == PWR_MGMT_1 && r.mpu.bus.chip.regs == m.bus.chip.regs
    ensures RegRead(Calls(m, r.mpu), PWR_MGMT_1, SingleByte)
    ensures RegReadRc(Calls(m, r.mpu)) < 0 ==> !r.value
    ensures RegReadRc(Calls(m, r.mpu)) >= 0 ==> (r.value <==> Received(Calls(m, r.mpu)[1]) != 0)
    ensures Healthy(m.bus) ==> Healthy(r.mpu.bus) && (r.value <==> Reg(m.bus.chip.regs, PWR_MGMT_1) != 0)
  {
    var f := Fetch(m, PWR_MGMT_1);
    Flag(f.rc >= 0 && f.mpu.held != 0, f.mpu)
  }

  /**
   The byte setSleepEnabled writes: the byte read with bit 6 set
   (`|= 1 << 6`) or cleared (`&= 0xBF`).
   */
  function SleepByte(held: bv8, on: bool): (v: bv8)
    ensures SleepOf(v) == on
    ensures v & !SLEEP_MASK == held & !SLEEP_MASK
  {
    if on then held | (1 << PWR1_SLEEP_BIT) else held & 0xBF
  }

  /**
   Second half of setSleepEnabled: write the held byte with bit 6 set or
   cleared, then, if that write did not fail, read PWR_MGMT_1 back.
   */
  function StorePower(m: Mpu, on: bool): (r: Status)
    ensures r.mpu == m.(bus := r.mpu.bus, held := r.mpu.held)
    ensures Extends(m.bus, r.mpu.bus) && |m.bus.trace| < |r.mpu.bus.trace|
    ensures Calls(m, r.mpu)[0].Write? && Calls(m, r.mpu)[0].bytes == [PWR_MGMT_1, SleepByte(m.held, on)]
    ensures Calls(m, r.mpu)[0].rc == -1 ==> r.rc == -1 && |Calls(m, r.mpu)| == 1
    ensures Calls(m, r.mpu)[0].rc != -1 ==>
      RegRead(Calls(m, r.mpu)[1..], PWR_MGMT_1, SingleByte) && (r.rc == 1 <==> RegReadRc(Calls(m, r.mpu)[1..]) >= 0)
    ensures r.rc == 1 || r.rc == -1
    ensures Healthy(m.bus) ==> Healthy(r.mpu.bus) && r.rc == 1
    ensures Healthy(m.bus) ==> r.mpu.bus.chip.regs == m.bus.chip.regs[PWR_MGMT_1 as int := SleepByte(m.held, on)]
  {
    var v := SleepByte(m.held, on);
    var w := WriteReg(m.bus, PWR_MGMT_1, [v]);
    var m2 := m.(bus := w.bus, held := v);
    if w.rc < 0 then
      Status(-1, m2)
    else
      var rd := ReadReg(m2.bus, PWR_MGMT_1, [v]);
      NewCallsSplit(m.bus, m2.bus, rd.bus);
      Status(if rd.rc < 0 then -1 else 1, m2.(bus := rd.bus, held := rd.buf[0]))
  }

  /**
   The calls of one setSleepEnabled: a failed read and nothing else; or a
   read, the write of the byte read with bit 6 changed, and, unless that
   write failed, the read-back, whose outcome decides the value returned.
   */
  predicate SleepCalls(calls: seq<Call>, on: bool, rc: int)
  {
    || (rc == -1 && FailedRead(calls, PWR_MGMT_1))
    || (&& |calls| >= 3
        && ReadThenWrite(calls[..3], PWR_MGMT_1, SleepByte(Received(calls[1]), on))
        && (calls[2].rc == -1 ==> rc == -1 && |calls| == 3)
        && (calls[2].rc != -1 ==> RegRead(calls[3..], PWR_MGMT_1, SingleByte) && (rc == 1 <==> RegReadRc(calls[3..]) >= 0)))
  }

  /**
   setSleepEnabled: read PWR_MGMT_1, set or clear bit 6 of the byte read,
   write it back, read the register again, and return 1; any read or write
   that fails returns -1 at once.
   */
  function SetSleepEnabled(m: Mpu, on: bool): (r: Status)
    ensures Extends(m.bus, r.mpu.bus) && r.mpu.accessReg == PWR_MGMT_1
    ensures r.mpu.gyro == m.gyro && r.mpu.accel == m.accel && r.mpu.sample == m.sample && r.mpu.burstReg == m.burstReg
    ensures r.rc == -1 || r.rc == 1
    ensures SleepCalls(Calls(m, r.mpu), on, r.rc)
    ensures Disciplined(Calls(m, r.mpu)) && Opening(Calls(m, r.mpu))
    ensures Healthy(m.bus) ==> Healthy(r.mpu.bus) && r.rc == 1
    ensures Healthy(m.bus) ==> r.mpu.bus.chip.regs == m.bus.chip.regs[PWR_MGMT_1 as int := SleepByte(Reg(m.bus.chip.regs, PWR_MGMT_1), on)]
  {
    var f := Fetch(m, PWR_MGMT_1);
    if f.rc < 0 then
      FailedReadDisciplined(Calls(m, f.mpu), PWR_MGMT_1);
      Status(-1, f.mpu)
    else
      var r := StorePower(f.mpu, on);
      NewCallsSplit(m.bus, f.mpu.bus, r.mpu.bus);
      SleepShape(Calls(m, f.mpu), Calls(f.mpu, r.mpu), on, r.rc);
      r
  }

  lemma SleepShape(a: seq<Call>, b: seq<Call>, on: bool, rc: int)
    requires RegRead(a, PWR_MGMT_1, SingleByte) && RegReadRc(a) >= 0
    requires |b| >= 1 && b[0].Write? && b[0].bytes == [PWR_MGMT_1, SleepByte(Received(a[1]), on)]
    requires b[0].rc == -1 ==> rc == -1 && |b| == 1
    requires b[0].rc != -1 ==> RegRead(b[1..], PWR_MGMT_1, SingleByte) && (rc == 1 <==> RegReadRc(b[1..]) >= 0)
    ensures SleepCalls(a + b, on, rc)
    ensures Disciplined(a + b) && Opening(a + b)
  {
    var calls := a + b;
    assert calls[..3] == a + [b[0]];
    assert (a + [b[0]])[..2] == a;
    assert calls[1] == a[1] && calls[2] == b[0];
    ReadThenWriteDisciplined(calls[..3], PWR_MGMT_1, SleepByte(Received(calls[1]), on));
    if |b| > 1 {
      assert calls[3..] == b[1..];
      RegReadDisciplined(b[1..], PWR_MGMT_1, SingleByte);
      DisciplineConcat(calls[..3], calls[3..]);
      assert calls == calls[..3] + calls[3..];
    } else {
      assert calls == calls[..3];
    }
  }

  /** The big-endian word of a channel's register pair in a burst from `start`: high register first. */
  function RegisterWord(regs: map<int, bv8>, start: bv8, c: Channel): U16
  {
    256 * (Reg(regs, Addr(start, Offset(c))) as int) + Reg(regs, Addr(start, Offset(c) + 1)) as int
  }

  /**
   A burst at ACCEL_XOUT_H reads each channel's high byte from the register
   the register map documents for it, two registers apart.
   */
  lemma BurstRegistersMatchRegisterMap()
    ensures Addr(ACCEL_XOUT_H, Offset(AccelX)) == ACCEL_XOUT_H
    ensures Addr(ACCEL_XOUT_H, Offset(AccelY)) == 0x3D
    ensures Addr(ACCEL_XOUT_H, Offset(AccelZ)) == 0x3F
    ensures Addr(ACCEL_XOUT_H, Offset(Temperature)) == TEMP_OUT_H
    ensures Addr(ACCEL_XOUT_H, Offset(GyroX)) == GYRO_XOUT_H
    ensures Addr(ACCEL_XOUT_H, Offset(GyroY)) == 0x45
    ensures Addr(ACCEL_XOUT_H, Offset(GyroZ)) == 0x47
  {
    assert Offset(AccelY) == 2 && Offset(AccelZ) == 4 && Offset(Temperature) == 6;
    assert Offset(GyroX) == 8 && Offset(GyroY) == 10 && Offset(GyroZ) == 12;
  }

  /** A burst of the whole sample puts each channel's register pair in its field, high byte first. */
  lemma BurstWords(regs: map<int, bv8>, start: bv8)
    ensures forall c :: WireValue(Burst(regs, start, SampleBytes), c) == RegisterWord(regs, start, c)
  {
  }

  /** The sample buffer after a burst read that delivered k bytes: those k, then what the buffer held. */
  function Landed(m: Mpu, k: int): Raw
    requires 0 <= k <= SampleBytes
  {
    Burst(m.bus.chip.regs, m.burstReg, k) + m.sample[k..]
  }

  /**
   getSensorValues: one fourteen-byte register read at the burst start
   register into the sample buffer; -1 if it failed, otherwise swap the
   two bytes of every field and return 1. A read that delivered fewer
   bytes counts as success.
   */
  function GetSensorValues(m: Mpu): (r: Status)
    ensures r.mpu == m.(bus := r.mpu.bus, sample := r.mpu.sample)
    ensures Extends(m.bus, r.mpu.bus) && r.mpu.bus.chip.regs == m.bus.chip.regs
    ensures RegRead(Calls(m, r.mpu), m.burstReg, SampleBytes) && RegReadRc(Calls(m, r.mpu)) <= SampleBytes
    ensures r.rc == -1 || r.rc == 1
    ensures r.rc == -1 <==> RegReadRc(Calls(m, r.mpu)) < 0
    ensures r.rc == -1 ==> r.mpu.sample == m.sample
    ensures r.rc == 1 ==> r.mpu.sample == SwapAllBytes(Landed(m, RegReadRc(Calls(m, r.mpu))))
    ensures Healthy(m.bus) ==> Healthy(r.mpu.bus) && r.rc == 1
    ensures Healthy(m.bus) ==> forall c :: Field(r.mpu.sample, c) == RegisterWord(m.bus.chip.regs, m.burstReg, c)
  {
    var rd := ReadReg(m.bus, m.burstReg, m.sample);
    if rd.rc < 0 then
      Status(-1, m.(bus := rd.bus))
    else
      BurstWords(m.bus.chip.regs, m.burstReg);
      Status(1, m.(bus := rd.bus, sample := SwapAllBytes(rd.buf)))
  }

  /**
   The integer part of getDoubleSensorValues: run getSensorValues; if it
   failed return -1 and leave the caller's outputs as they were, otherwise
   decode every field with _f2sComplement (which rewrites negative fields
   of the buffer in place) and return 1. The outputs are these counts
   divided by the scale entries in force.
   */
  function GetDoubleSensorValues(m: Mpu, out: Counts): (r: Reading)
    ensures r.mpu == m.(bus := r.mpu.bus, sample := r.mpu.sample)
    ensures r.accel == m.accel && r.gyro == m.gyro
    ensures Extends(m.bus, r.mpu.bus) && r.mpu.bus.chip.regs == m.bus.chip.regs
    ensures RegRead(Calls(m, r.mpu), m.burstReg, SampleBytes) && RegReadRc(Calls(m, r.mpu)) <= SampleBytes
    ensures r.rc == -1 || r.rc == 1
    ensures r.rc == -1 <==> RegReadRc(Calls(m, r.mpu)) < 0
    ensures r.rc == -1 ==> r.counts == out && r.mpu.sample == m.sample
    ensures r.rc == 1 ==> forall c :: r.counts.Of(c) == SignedWire(WireValue(Landed(m, RegReadRc(Calls(m, r.mpu))), c))
    ensures r.rc == 1 ==> forall c :: Field(r.mpu.sample, c) == F2sComplement(WireValue(Landed(m, RegReadRc(Calls(m, r.mpu))), c)).rewritten
    ensures Healthy(m.bus) ==> Healthy(r.mpu.bus) && r.rc == 1
    ensures Healthy(m.bus) ==> forall c :: r.counts.Of(c) == SignedWire(RegisterWord(m.bus.chip.regs, m.burstReg, c))
  {
    var g := GetSensorValues(m);
    if g.rc > 0 then
      var wire := Landed(m, RegReadRc(Calls(m, g.mpu)));
      var d := DecodeAll(g.mpu.sample);
      SwapThenDecode(wire);
      BurstWords(m.bus.chip.regs, m.burstReg);
      Reading(1, d.counts, g.mpu.accel, g.mpu.gyro, g.mpu.(sample := d.buffer))
    else
      Reading(-1, out, g.mpu.accel, g.mpu.gyro, g.mpu)
  }

  /** Two steps that each issue a disciplined run opening with a pointer write make one such run. */
  lemma Chain(m0: Mpu, m1: Mpu, m2: Mpu)
    requires Extends(m0.bus, m1.bus) && Extends(m1.bus, m2.bus)
    requires Disciplined(Calls(m0, m1)) && Opening(Calls(m0, m1))
    requires Disciplined(Calls(m1, m2)) && Opening(Calls(m1, m2))
    ensures Extends(m0.bus, m2.bus)
    ensures Disciplined(Calls(m0, m2)) && Opening(Calls(m0, m2))
  {
    NewCallsSplit(m0.bus, m1.bus, m2.bus);
    DisciplineConcat(Calls(m0, m1), Calls(m1, m2));
  }

  /**
   The configuration sequence of initialize: PLL with the X gyro as clock,
   +/-250 deg/s, +/-2 g, sleep off. The value each setter returns is
   ignored.
   */
  function Configure(m: Mpu): (r: Mpu)
    ensures Extends(m.bus, r.bus) && Disciplined(Calls(m, r)) && Opening(Calls(m, r))
    ensures r.gyro == Dps250 && r.accel == G2 && r.burstReg == m.burstReg && r.sample == m.sample
    ensures Healthy(m.bus) ==> Healthy(r.bus) && Configured(m.bus.chip.regs, r.bus.chip.regs)
  {
    var h := ConfigureClockAndGyro(m);
    var r := ConfigureAccelAndSleep(h);
    Chain(m, h, r);
    ConfiguredInTwoHalves(Healthy(m.bus), m.bus.chip.regs, h.bus.chip.regs, r.bus.chip.regs);
    r
  }

  /** Only `a` changes, to `v`. */
  ghost predicate Updated(regs: map<int, bv8>, regs': map<int, bv8>, a: bv8, v: bv8)
  {
    Reg(regs', a) == v && forall b :: b != a ==> Reg(regs', b) == Reg(regs, b)
  }

  lemma UpdatedByStore(regs: map<int, bv8>, a: bv8, v: bv8)
    ensures Updated(regs, regs[a as int := v], a, v)
  {
  }

  /**
   The register file the configuration sequence leaves on a healthy bus:
   PWR_MGMT_1 is 0x01, GYRO_CONFIG and ACCEL_CONFIG are 0x00, and every
   other register keeps its value.
   */
  ghost predicate Configured(regs: map<int, bv8>, regs': map<int, bv8>)
  {
    && Reg(regs', PWR_MGMT_1) == 0x01 && Reg(regs', GYRO_CONFIG) == 0x00 && Reg(regs', ACCEL_CONFIG) == 0x00
    && forall b :: b != PWR_MGMT_1 && b != GYRO_CONFIG && b != ACCEL_CONFIG ==> Reg(regs', b) == Reg(regs, b)
  }

  lemma ConfiguredInTwoHalves(ok: bool, r0: map<int, bv8>, r1: map<int, bv8>, r2: map<int, bv8>)
    requires ok ==> Reg(r1, PWR_MGMT_1) == 0x01 && Reg(r1, GYRO_CONFIG) == 0x00
    requires ok ==> forall b :: b != PWR_MGMT_1 && b != GYRO_CONFIG ==> Reg(r1, b) == Reg(r0, b)
    requires ok ==> Reg(r2, PWR_MGMT_1) == 0x01 && Reg(r2, ACCEL_CONFIG) == 0x00
    requires ok ==> forall b :: b != PWR_MGMT_1 && b != ACCEL_CONFIG ==> Reg(r2, b) == Reg(r1, b)
    ensures ok ==> Configured(r0, r2)
  {
  }

  /** First half of the configuration sequence: clock source, then gyro range. */
  function ConfigureClockAndGyro(m: Mpu): (r: Mpu)
    ensures Extends(m.bus, r.bus) && Disciplined(Calls(m, r)) && Opening(Calls(m, r))
    ensures r.gyro == Dps250 && r.accel == m.accel && r.burstReg == m.burstReg && r.sample == m.sample
    ensures Healthy(m.bus) ==> Healthy(r.bus)
    ensures Healthy(m.bus) ==> Reg(r.bus.chip.regs, PWR_MGMT_1) == 0x01 && Reg(r.bus.chip.regs, GYRO_CONFIG) == 0x00
    ensures Healthy(m.bus) ==> forall b :: b != PWR_MGMT_1 && b != GYRO_CONFIG ==> Reg(r.bus.chip.regs, b) == Reg(m.bus.chip.regs, b)
  {
    var s1 := SetClockSource(m, CLOCK_PLL_XGYRO);
    var s2 := SetFullScaleGyroRange(s1.mpu, GYRO_FS_250);
    Chain(m, s1.mpu, s2.mpu);
    assert ClockField(CLOCK_PLL_XGYRO) == 0x01 && FsField(GYRO_FS_250, GCONFIG_FS_SEL_BIT) == 0x00;
    UpdatedByStore(m.bus.chip.regs, PWR_MGMT_1, 0x01);
    UpdatedByStore(s1.mpu.bus.chip.regs, GYRO_CONFIG, 0x00);
    s2.mpu
  }

  /** Second half of the configuration sequence: accel range, then sleep off. */
  function ConfigureAccelAndSleep(m: Mpu): (r: Mpu)
    ensures Extends(m.bus, r.bus) && Disciplined(Calls(m, r)) && Opening(Calls(m, r))
    ensures r.gyro == m.gyro && r.accel == G2 && r.burstReg == m.burstReg && r.sample == m.sample
    ensures Healthy(m.bus) ==> Healthy(r.bus)
    ensures Healthy(m.bus) && Reg(m.bus.chip.regs, PWR_MGMT_1) == 0x01 ==>
      Reg(r.bus.chip.regs, PWR_MGMT_1) == 0x01 && Reg(r.bus.chip.regs, ACCEL_CONFIG) == 0x00
    ensures Healthy(m.bus) && Reg(m.bus.chip.regs, PWR_MGMT_1) == 0x01 ==>
      forall b :: b != PWR_MGMT_1 && b != ACCEL_CONFIG ==> Reg(r.bus.chip.regs, b) == Reg(m.bus.chip.regs, b)
  {
    var s3 := SetFullScaleAccelRange(m, ACCEL_FS_2);
    var s4 := SetSleepEnabled(s3.mpu, false);
    Chain(m, s3.mpu, s4.mpu);
    assert FsField(ACCEL_FS_2, ACONFIG_AFS_SEL_BIT) == 0x00 && SleepByte(0x01, false) == 0x01;
    UpdatedByStore(m.bus.chip.regs, ACCEL_CONFIG, 0x00);
    UpdatedByStore(s3.mpu.bus.chip.regs, PWR_MGMT_1, SleepByte(Reg(s3.mpu.bus.chip.regs, PWR_MGMT_1), false));
    s4.mpu
  }

  /**
   initialize: read WHO_AM_I into the cleared tempBuffer[0]; -1 if the read
   failed, -2 if the byte is not 0x68, and otherwise run the configuration
   sequence. The source then runs off the end of a function returning int;
   the model returns 0 there.
   */
  function Initialize(m: Mpu): (r: Status)
    ensures r.rc == -1 || r.rc == -2 || r.rc == 0
    ensures Extends(m.bus, r.mpu.bus) && Disciplined(Calls(m, r.mpu)) && Opening(Calls(m, r.mpu))
    ensures PointerWrite(Calls(m, r.mpu)[0], WHO_AM_I)
    ensures r.rc == -1 <==> FailedRead(Calls(m, r.mpu), WHO_AM_I)
    ensures r.rc == -2 ==> RegRead(Calls(m, r.mpu), WHO_AM_I, SingleByte) && RegReadRc(Calls(m, r.mpu)) >= 0
    ensures r.rc == -2 ==> Received(Calls(m, r.mpu)[1]) != DEVICE_IDENTITY
    ensures r.rc == 0 ==> |Calls(m, r.mpu)| > 2 && Calls(m, r.mpu)[1].Read? && Received(Calls(m, r.mpu)[1]) == DEVICE_IDENTITY
    ensures r.rc < 0 ==> r.mpu.bus.chip.regs == m.bus.chip.regs && r.mpu.gyro == m.gyro && r.mpu.accel == m.accel
    ensures r.rc == 0 ==> r.mpu.gyro == Dps250 && r.mpu.accel == G2
    ensures Healthy(m.bus) ==> Healthy(r.mpu.bus) && (r.rc == 0 <==> Reg(m.bus.chip.regs, WHO_AM_I) == DEVICE_IDENTITY)
    ensures Healthy(m.bus) && r.rc == 0 ==> Configured(m.bus.chip.regs, r.mpu.bus.chip.regs)
  {
    var f := Fetch(m, WHO_AM_I);
    if f.rc < 0 then
      FailedReadDisciplined(Calls(m, f.mpu), WHO_AM_I);
      Status(-1, f.mpu)
    else if f.mpu.held != DEVICE_IDENTITY then
      RegReadDisciplined(Calls(m, f.mpu), WHO_AM_I, SingleByte);
      Status(-2, f.mpu)
    else
      var c := Configure(f.mpu);
      NewCallsSplit(m.bus, f.mpu.bus, c.bus);
      IdentifiedThenConfigured(Calls(m, f.mpu), Calls(f.mpu, c));
      Status(0, c)
  }

  /** The calls of a successful initialize: the identity read, then a disciplined configuration run. */
  lemma IdentifiedThenConfigured(a: seq<Call>, b: seq<Call>)
    requires RegRead(a, WHO_AM_I, SingleByte) && RegReadRc(a) >= 0
    requires Disciplined(b) && Opening(b)
    ensures Disciplined(a + b) && Opening(a + b) && PointerWrite((a + b)[0], WHO_AM_I)
    ensures |a + b| > 2 && (a + b)[1] == a[1] && !FailedRead(a + b, WHO_AM_I)
  {
    RegReadDisciplined(a, WHO_AM_I, SingleByte);
    DisciplineConcat(a, b);
  }

  /**
   One driver member a program can invoke, including the private getters
   and setters that only initialize calls in the source.
   */
  datatype Command =
    | InitializeCmd
    | GetClockCmd
    | SetClockCmd(source: bv8)
    | GetGyroRangeCmd
    | SetGyroRangeCmd(code: bv8)
    | GetAccelRangeCmd
    | SetAccelRangeCmd(code: bv8)
    | GetSleepCmd
    | SetSleepCmd(on: bool)
    | SampleCmd

  /** The state after one command; every command issues a disciplined run opening with a pointer write. */
  function Step(m: Mpu, c: Command): (r: Mpu)
    ensures Extends(m.bus, r.bus) && Disciplined(Calls(m, r)) && Opening(Calls(m, r))
  {
    match c
    case InitializeCmd => Initialize(m).mpu
    case GetClockCmd =>
      var g := GetClockSource(m);
      RegReadDisciplined(Calls(m, g.mpu), PWR_MGMT_1, SingleByte);
      g.mpu
    case SetClockCmd(source) => SetClockSource(m, source).mpu
    case GetGyroRangeCmd =>
      var g := GetFullScaleGyroRange(m);
      RegReadDisciplined(Calls(m, g.mpu), GYRO_CONFIG, SingleByte);
      g.mpu
    case SetGyroRangeCmd(code) => SetFullScaleGyroRange(m, code).mpu
    case GetAccelRangeCmd =>
      var g := GetFullScaleAccelRange(m);
      RegReadDisciplined(Calls(m, g.mpu), ACCEL_CONFIG, SingleByte);
      g.mpu
    case SetAccelRangeCmd(code) => SetFullScaleAccelRange(m, code).mpu
    case GetSleepCmd =>
      var g := GetSleepEnabled(m);
      RegReadDisciplined(Calls(m, g.mpu), PWR_MGMT_1, SingleByte);
      g.mpu
    case SetSleepCmd(on) => SetSleepEnabled(m, on).mpu
    case SampleCmd =>
      var g := GetDoubleSensorValues(m, Counts(0, 0, 0, 0, 0, 0, 0));
      RegReadDisciplined(Calls(m, g.mpu), m.burstReg, SampleBytes);
      g.mpu
  }

  /**
   A program of driver calls, run in order. Whatever the bus does, no read
   is ever issued without a pointer write that moved its byte just before
   it, and no data write without a read that did not fail just before it.
   */
  function Run(m: Mpu, cmds: seq<Command>): (r: Mpu)
    ensures Extends(m.bus, r.bus) && Disciplined(Calls(m, r))
    ensures cmds != [] ==> Opening(Calls(m, r))
    decreases |cmds|
  {
    if cmds == [] then
      m
    else
      var m1 := Step(m, cmds[0]);
      var r := Run(m1, cmds[1..]);
      if cmds[1..] == [] then
        r
      else
        Chain(m, m1, r);
        r
  }

  /**
   setClockSource writes the clock field alone: on a part that powered up
   asleep (PWR_MGMT_1 = 0x40) selecting the X-gyro PLL also wakes it,
   where a read-modify-write would have written 0x41.
   */
  lemma SetClockSourceClearsSleep(m: Mpu)
    requires Healthy(m.bus) && Reg(m.bus.chip.regs, PWR_MGMT_1) == 0x40
    ensures SetClockSource(m, CLOCK_PLL_XGYRO).rc == 1
    ensures Reg(SetClockSource(m, CLOCK_PLL_XGYRO).mpu.bus.chip.regs, PWR_MGMT_1) == 0x01
    ensures !SleepOf(Reg(SetClockSource(m, CLOCK_PLL_XGYRO).mpu.bus.chip.regs, PWR_MGMT_1))
    ensures ReplaceField(0x40, CLKSEL_MASK, ClockField(CLOCK_PLL_XGYRO)) == 0x41
  {
  }

  /** The range setters likewise clear the self-test bits 7:5 of the configuration register. */
  lemma RangeSetterClearsSelfTest(m: Mpu)
    requires Healthy(m.bus) && Reg(m.bus.chip.regs, GYRO_CONFIG) == 0xE0
    ensures Reg(SetFullScaleGyroRange(m, GYRO_FS_500).mpu.bus.chip.regs, GYRO_CONFIG) == 0x08
    ensures ReplaceField(0xE0, FS_SEL_MASK, FsField(GYRO_FS_500, GCONFIG_FS_SEL_BIT)) == 0xE8
  {
  }

  /**
   The scale entry is chosen before any transfer: when the probe of
   GYRO_CONFIG fails the call returns -1, the register keeps +/-250 deg/s,
   and the driver now divides by the +/-2000 deg/s entry.
   */
  lemma ScaleChangesOnFailedSet(m: Mpu)
    requires m.bus.faults == [Fail] && Reg(m.bus.chip.regs, GYRO_CONFIG) == 0x00 && m.gyro == Dps250
    ensures SetFullScaleGyroRange(m, GYRO_FS_2000).rc == -1
    ensures SetFullScaleGyroRange(m, GYRO_FS_2000).mpu.gyro == Dps2000
    ensures GyroRangeOf(Reg(SetFullScaleGyroRange(m, GYRO_FS_2000).mpu.bus.chip.regs, GYRO_CONFIG)) == Dps250
  {
  }

  /** Code 5 selects the +/-250 deg/s entry while the register is set to +/-500 deg/s. */
  lemma OutOfTableCodeLeavesScaleBehind(m: Mpu)
    requires Healthy(m.bus)
    ensures SetFullScaleGyroRange(m, 5).rc == 1
    ensures SetFullScaleGyroRange(m, 5).mpu.gyro == Dps250
    ensures GyroRangeOf(Reg(SetFullScaleGyroRange(m, 5).mpu.bus.chip.regs, GYRO_CONFIG)) == Dps500
  {
    OutOfTableCodeDesynchronizes();
  }

  /** An awake part clocked from the X-gyro PLL (PWR_MGMT_1 = 0x01) reads as asleep. */
  lemma SleepReadMisreadsClockBits(m: Mpu)
    requires Healthy(m.bus) && Reg(m.bus.chip.regs, PWR_MGMT_1) == 0x01
    ensures GetSleepEnabled(m).value
    ensures !SleepOf(Reg(m.bus.chip.regs, PWR_MGMT_1))
  {
  }

  /**
   A burst read that delivers no byte still returns 1: the buffer keeps
   the previous sample, which is then swapped a second time.
   */
  lemma ShortBurstReportsSuccess(m: Mpu)
    requires m.bus.faults == [Complete, Short(0)]
    ensures GetSensorValues(m).rc == 1
    ensures GetSensorValues(m).mpu.sample == SwapAllBytes(m.sample)
  {
    assert Landed(m, 0) == m.sample;
  }

  /**
   initialize returns 0 although setting the clock source failed: the
   identity read succeeds, the probe of PWR_MGMT_1 fails, and the part is
   left on its internal oscillator.
   */
  lemma InitializeIgnoresFailedStep(m: Mpu)
    requires m.bus.faults == [Complete, Complete, Fail]
    requires Reg(m.bus.chip.regs, WHO_AM_I) == 0x68 && Reg(m.bus.chip.regs, PWR_MGMT_1) == 0x40
    ensures Initialize(m).rc == 0
    ensures ClockOf(Reg(Initialize(m).mpu.bus.chip.regs, PWR_MGMT_1)) == Internal8MHz
  {
    var f := Fetch(m, WHO_AM_I);
    IdentityReadSucceeds(m);
    ConfigureAfterFailedProbe(f.mpu);
  }

  lemma ConfigureAfterFailedProbe(f: Mpu)
    requires f.bus.faults == [Fail] && Reg(f.bus.chip.regs, PWR_MGMT_1) == 0x40
    ensures ClockOf(Reg(Configure(f).bus.chip.regs, PWR_MGMT_1)) == Internal8MHz
  {
    var s1 := SetClockSource(f, CLOCK_PLL_XGYRO);
    ProbeFailureIsClean(f);
    var s2 := SetFullScaleGyroRange(s1.mpu, GYRO_FS_250);
    var s3 := SetFullScaleAccelRange(s2.mpu, ACCEL_FS_2);
    var s4 := SetSleepEnabled(s3.mpu, false);
    assert Reg(s3.mpu.bus.chip.regs, PWR_MGMT_1) == 0x40;
    assert SleepByte(0x40, false) == 0x00;
    assert Configure(f) == s4.mpu;
  }

  lemma IdentityReadSucceeds(m: Mpu)
    requires m.bus.faults == [Complete, Complete, Fail] && Reg(m.bus.chip.regs, WHO_AM_I) == 0x68
    ensures Fetch(m, WHO_AM_I).rc == 1 && Fetch(m, WHO_AM_I).mpu.held == 0x68
    ensures Fetch(m, WHO_AM_I).mpu.bus.faults == [Fail]
  {
  }

  lemma ProbeFailureIsClean(m: Mpu)
    requires m.bus.faults == [Fail]
    ensures SetClockSource(m, CLOCK_PLL_XGYRO).rc == -1
    ensures Healthy(SetClockSource(m, CLOCK_PLL_XGYRO).mpu.bus)
    ensures SetClockSource(m, CLOCK_PLL_XGYRO).mpu.bus.chip.regs == m.bus.chip.regs
  {
  }

  /** The register words of the accelerometer X and temperature channels in a burst from ACCEL_XOUT_H. */
  lemma BurstPairs(regs: map<int, bv8>)
    ensures RegisterWord(regs, ACCEL_XOUT_H, AccelX) == 256 * (Reg(regs, 0x3B) as int) + Reg(regs, 0x3C) as int
    ensures RegisterWord(regs, ACCEL_XOUT_H, Temperature) == 256 * (Reg(regs, 0x41) as int) + Reg(regs, 0x42) as int
  {
    assert Addr(ACCEL_XOUT_H, 0) == 0x3B && Addr(ACCEL_XOUT_H, 1) == 0x3C;
    assert Addr(ACCEL_XOUT_H, 6) == 0x41 && Addr(ACCEL_XOUT_H, 7) == 0x42;
  }

  /**
   The burst of a part whose ACCEL_XOUT registers hold 0x04, 0x00 and whose
   TEMP_OUT registers hold 0xFF, 0xFE decodes to ax = 1024 and temp = -2.
   */
  lemma SampleDecodesRegisterPairs(m: Mpu)
    requires Healthy(m.bus) && m.burstReg == ACCEL_XOUT_H
    requires Reg(m.bus.chip.regs, 0x3B) == 0x04 && Reg(m.bus.chip.regs, 0x3C) == 0x00
    requires Reg(m.bus.chip.regs, 0x41) == 0xFF && Reg(m.bus.chip.regs, 0x42) == 0xFE
    ensures GetDoubleSensorValues(m, Counts(0, 0, 0, 0, 0, 0, 0)).counts.ax == 1024
    ensures GetDoubleSensorValues(m, Counts(0, 0, 0, 0, 0, 0, 0)).counts.temp == -2
  {
    var r := GetDoubleSensorValues(m, Counts(0, 0, 0, 0, 0, 0, 0));
    BurstPairs(m.bus.chip.regs);
    assert r.counts.Of(AccelX) == SignedWire(RegisterWord(m.bus.chip.regs, ACCEL_XOUT_H, AccelX));
    assert r.counts.Of(Temperature) == SignedWire(RegisterWord(m.bus.chip.regs, ACCEL_XOUT_H, Temperature));
  }
}

=== FILE: mpu6050_fixed.dfy ===
/**
 The MPU-6050 driver as its comments and the register map describe it:
 every transfer's byte count is checked, the setters read the register
 into the byte they modify and replace only their field, a scale entry
 changes only when its register was written and is taken from the field
 written, the sleep query tests bit 6, and initialize reports a failed
 configuration step. The state, the bus and the calls are those of the
 literal model.
 */
module Mpu6050Fixed {
  import opened RegisterMap
  import opened SampleCodec
  import opened I2CHandle
  import opened Mpu6050

  /** Failure of a configuration step after the identity check passed. */
  const ConfigFailed: int := -3

  /** A checked one-byte read: 1 and the register's value, or -1. */
  datatype Fetched = Fetched(rc: int, value: bv8, mpu: Mpu)

  /** The scale entries agree with the FS_SEL fields of the registers. */
  predicate InSync(m: Mpu)
  {
    && m.gyro == GyroRangeOf(Reg(m.bus.chip.regs, GYRO_CONFIG))
    && m.accel == AccelRangeOf(Reg(m.bus.chip.regs, ACCEL_CONFIG))
  }

  /** Read one register into tempBuffer[0]; 1 only when its byte arrived. */
  function ReadByte(m: Mpu, reg: bv8): (r: Fetched)
    ensures r.mpu == m.(bus := r.mpu.bus, held := r.value, staged := 0, accessReg := reg)
    ensures Extends(m.bus, r.mpu.bus) && r.mpu.bus.chip.regs == m.bus.chip.regs
    ensures RegRead(Calls(m, r.mpu), reg, SingleByte)
    ensures r.rc == 1 || r.rc == -1
    ensures r.rc == 1 <==> RegReadRc(Calls(m, r.mpu)) == 1
    ensures r.rc == 1 <==> AllCompleted(Calls(m, r.mpu))
    ensures StopsAtFailure(Calls(m, r.mpu))
    ensures r.rc == 1 ==> r.value == Reg(m.bus.chip.regs, reg)
    ensures Healthy(m.bus) ==> Healthy(r.mpu.bus) && r.rc == 1
  {
    var rd := ReadRegExact(m.bus, reg, [0]);
    Fetched(if rd.rc == 1 then 1 else -1, rd.buf[0], m.(bus := rd.bus, held := rd.buf[0], staged := 0, accessReg := reg))
  }

  /** Write one byte to a register; 1 only when the address and the byte both went out. */
  function WriteByte(m: Mpu, reg: bv8, v: bv8): (r: Status)
    ensures r.mpu == m.(bus := r.mpu.bus, staged := v)
    ensures Extends(m.bus, r.mpu.bus) && |r.mpu.bus.trace| == |m.bus.trace| + 1
    ensures Calls(m, r.mpu) == [r.mpu.bus.trace[|m.bus.trace|]]
    ensures Calls(m, r.mpu)[0].Write? && Calls(m, r.mpu)[0].bytes == [reg, v]
    ensures r.rc == 1 || r.rc == -1
    ensures r.rc == 1 <==> AllCompleted(Calls(m, r.mpu))
    ensures StopsAtFailure(Calls(m, r.mpu))
    ensures r.rc == 1 ==> r.mpu.bus.chip.regs == m.bus.chip.regs[reg as int := v]
    ensures r.rc == -1 ==> r.mpu.bus.chip.regs == m.bus.chip.regs
    ensures Healthy(m.bus) ==> Healthy(r.mpu.bus) && r.rc == 1
  {
    var w := WriteRegExact(m.bus, reg, [v]);
    Status(w.rc, m.(bus := w.bus, staged := v))
  }

  /**
   Read-modify-write of one field: read the register, replace the bits
   under `mask` with `field`, write the result back. A failed read issues
   no write; a failed step leaves the registers as they were.
   */
  function UpdateField(m: Mpu, reg: bv8, mask: bv8, field: bv8): (r: Status)
    requires field & !mask == 0
    ensures Extends(m.bus, r.mpu.bus) && Disciplined(Calls(m, r.mpu)) && Opening(Calls(m, r.mpu))
    ensures r.mpu.gyro == m.gyro && r.mpu.accel == m.accel && r.mpu.sample == m.sample && r.mpu.burstReg == m.burstReg
    ensures r.rc == 1 || r.rc == -1
    ensures r.rc == 1 <==> AllCompleted(Calls(m, r.mpu))
    ensures StopsAtFailure(Calls(m, r.mpu))
    ensures r.rc == 1 ==> r.mpu.bus.chip.regs == m.bus.chip.regs[reg as int := ReplaceField(Reg(m.bus.chip.regs, reg), mask, field)]
    ensures r.rc == -1 ==> r.mpu.bus.chip.regs == m.bus.chip.regs
    ensures Healthy(m.bus) ==> Healthy(r.mpu.bus) && r.rc == 1
  {
    var f := ReadByte(m, reg);
    if f.rc != 1 then
      RegReadDisciplined(Calls(m, f.mpu), reg, SingleByte);
      Status(-1, f.mpu)
    else
      var v := ReplaceField(f.value, mask, field);
      var w := WriteByte(f.mpu, reg, v);
      NewCallsSplit(m.bus, f.mpu.bus, w.mpu.bus);
      Continue(m, f.mpu, w.mpu);
      ReadWriteShape(Calls(m, f.mpu), Calls(f.mpu, w.mpu), reg, v);
      w
  }

  lemma ReadWriteShape(a: seq<Call>, b: seq<Call>, reg: bv8, v: bv8)
    requires RegRead(a, reg, SingleByte) && RegReadRc(a) == 1
    requires |b| == 1 && b[0].Write? && b[0].bytes == [reg, v]
    ensures ReadThenWrite(a + b, reg, v)
    ensures Disciplined(a + b) && Opening(a + b)
  {
    assert (a + b)[..2] == a;
    ReadThenWriteDisciplined(a + b, reg, v);
  }

  /** A step that follows a fully completed one completes iff it does, and still stops at its failure. */
  lemma Continue(m0: Mpu, m1: Mpu, m2: Mpu)
    requires Extends(m0.bus, m1.bus) && Extends(m1.bus, m2.bus) && AllCompleted(Calls(m0, m1))
    ensures Extends(m0.bus, m2.bus)
    ensures AllCompleted(Calls(m0, m2)) <==> AllCompleted(Calls(m1, m2))
    ensures StopsAtFailure(Calls(m1, m2)) ==> StopsAtFailure(Calls(m0, m2))
  {
    NewCallsSplit(m0.bus, m1.bus, m2.bus);
    CompletionConcat(Calls(m0, m1), Calls(m1, m2));
  }

  function GetClockSource(m: Mpu): (r: Fetched)
    ensures Extends(m.bus, r.mpu.bus) && r.mpu.bus.chip.regs == m.bus.chip.regs
    ensures RegRead(Calls(m, r.mpu), PWR_MGMT_1, SingleByte)
    ensures r.rc == 1 ==> ClockOf(r.value) == ClockOf(Reg(m.bus.chip.regs, PWR_MGMT_1))
    ensures Healthy(m.bus) ==> r.rc == 1
  {
    ReadByte(m, PWR_MGMT_1)
  }

  /**
   setClockSource, corrected: the clock-select bits become the requested
   source and every other bit of PWR_MGMT_1, the SLEEP bit included, keeps
   its value.
   */
  function SetClockSource(m: Mpu, source: bv8): (r: Status)
    ensures Extends(m.bus, r.mpu.bus) && Disciplined(Calls(m, r.mpu)) && Opening(Calls(m, r.mpu))
    ensures r.mpu.gyro == m.gyro && r.mpu.accel == m.accel && r.mpu.sample == m.sample && r.mpu.burstReg == m.burstReg
    ensures r.rc == 1 || r.rc == -1
    ensures r.rc == 1 <==> AllCompleted(Calls(m, r.mpu))
    ensures StopsAtFailure(Calls(m, r.mpu))
    ensures r.rc == 1 ==> ClockOf(Reg(r.mpu.bus.chip.regs, PWR_MGMT_1)) == ClockOf(source)
    ensures r.rc == 1 ==> Reg(r.mpu.bus.chip.regs, PWR_MGMT_1) & !CLKSEL_MASK == Reg(m.bus.chip.regs, PWR_MGMT_1) & !CLKSEL_MASK
    ensures r.rc == 1 ==> SleepOf(Reg(r.mpu.bus.chip.regs, PWR_MGMT_1)) == SleepOf(Reg(m.bus.chip.regs, PWR_MGMT_1))
    ensures r.rc == 1 ==> forall a :: a != PWR_MGMT_1 ==> Reg(r.mpu.bus.chip.regs, a) == Reg(m.bus.chip.regs, a)
    ensures r.rc == -1 ==> r.mpu.bus.chip.regs == m.bus.chip.regs
    ensures Healthy(m.bus) ==> Healthy(r.mpu.bus) && r.rc == 1
  {
    var r := UpdateField(m, PWR_MGMT_1, CLKSEL_MASK, ClockField(source));
    ReplaceClockField(Reg(m.bus.chip.regs, PWR_MGMT_1), source);
    r
  }

  /** The clock source read back after a successful set is the one requested, whatever else the bus did. */
  lemma ClockSetThenGet(m: Mpu, source: bv8)
    requires SetClockSource(m, source).rc == 1
    requires GetClockSource(SetClockSource(m, source).mpu).rc == 1
    ensures ClockOf(GetClockSource(SetClockSource(m, source).mpu).value) == ClockOf(source)
  {
  }

  function GetFullScaleGyroRange(m: Mpu): (r: Fetched)
    ensures Extends(m.bus, r.mpu.bus) && r.mpu.bus.chip.regs == m.bus.chip.regs
    ensures RegRead(Calls(m, r.mpu), GYRO_CONFIG, SingleByte)
    ensures r.rc == 1 ==> GyroRangeOf(r.value) == GyroRangeOf(Reg(m.bus.chip.regs, GYRO_CONFIG))
    ensures Healthy(m.bus) ==> r.rc == 1
  {
    ReadByte(m, GYRO_CONFIG)
  }

  function GetFullScaleAccelRange(m: Mpu): (r: Fetched)
    ensures Extends(m.bus, r.mpu.bus) && r.mpu.bus.chip.regs == m.bus.chip.regs
    ensures RegRead(Calls(m, r.mpu), ACCEL_CONFIG, SingleByte)
    ensures r.rc == 1 ==> AccelRangeOf(r.value) == AccelRangeOf(Reg(m.bus.chip.regs, ACCEL_CONFIG))
    ensures Healthy(m.bus) ==> r.rc == 1
  {
    ReadByte(m, ACCEL_CONFIG)
  }

  /**
   setFullScaleGyroRange, corrected: look the code up in the scale table
   (an unknown code selects +/-250 deg/s), replace the FS_SEL field only
   with the code of the entry chosen, and adopt that entry once the field
   was written.
   */
  function SetFullScaleGyroRange(m: Mpu, code: bv8): (r: Status)
    ensures Extends(m.bus, r.mpu.bus) && Disciplined(Calls(m, r.mpu)) && Opening(Calls(m, r.mpu))
    ensures r.mpu.accel == m.accel && r.mpu.sample == m.sample && r.mpu.burstReg == m.burstReg
    ensures r.rc == 1 || r.rc == -1
    ensures r.rc == 1 <==> AllCompleted(Calls(m, r.mpu))
    ensures StopsAtFailure(Calls(m, r.mpu))
    ensures r.rc == 1 ==> r.mpu.gyro == GyroScaleFor(code) == GyroRangeOf(Reg(r.mpu.bus.chip.regs, GYRO_CONFIG))
    ensures r.rc == 1 && code < 4 ==> FsSelOf(Reg(r.mpu.bus.chip.regs, GYRO_CONFIG)) == code
    ensures r.rc == 1 ==> Reg(r.mpu.bus.chip.regs, GYRO_CONFIG) & !FS_SEL_MASK == Reg(m.bus.chip.regs, GYRO_CONFIG) & !FS_SEL_MASK
    ensures r.rc == 1 ==> forall a :: a != GYRO_CONFIG ==> Reg(r.mpu.bus.chip.regs, a) == Reg(m.bus.chip.regs, a)
    ensures r.rc == -1 ==> r.mpu.gyro == m.gyro && r.mpu.bus.chip.regs == m.bus.chip.regs
    ensures Healthy(m.bus) ==> Healthy(r.mpu.bus) && r.rc == 1
  {
    var g := GyroScaleFor(code);
    var field := FsField(GyroCode(g), GCONFIG_FS_SEL_BIT);
    var u := UpdateField(m, GYRO_CONFIG, FS_SEL_MASK, field);
    var v := ReplaceField(Reg(m.bus.chip.regs, GYRO_CONFIG), FS_SEL_MASK, field);
    FsFieldDecides(v, field);
    TableFieldDecodes(code);
    if u.rc == 1 then Status(1, u.mpu.(gyro := g)) else u
  }

  /** setFullScaleAccelRange, corrected, as the gyro setter; an unknown code selects +/-2 g. */
  function SetFullScaleAccelRange(m: Mpu, code: bv8): (r: Status)
    ensures Extends(m.bus, r.mpu.bus) && Disciplined(Calls(m, r.mpu)) && Opening(Calls(m, r.mpu))
    ensures r.mpu.gyro == m.gyro && r.mpu.sample == m.sample && r.mpu.burstReg == m.burstReg
    ensures r.rc == 1 || r.rc == -1
    ensures r.rc == 1 <==> AllCompleted(Calls(m, r.mpu))
    ensures StopsAtFailure(Calls(m, r.mpu))
    ensures r.rc == 1 ==> r.mpu.accel == AccelScaleFor(code) == AccelRangeOf(Reg(r.mpu.bus.chip.regs, ACCEL_CONFIG))
    ensures r.rc == 1 && code < 4 ==> FsSelOf(Reg(r.mpu.bus.chip.regs, ACCEL_CONFIG)) == code
    ensures r.rc == 1 ==> Reg(r.mpu.bus.chip.regs, ACCEL_CONFIG) & !FS_SEL_MASK == Reg(m.bus.chip.regs, ACCEL_CONFIG) & !FS_SEL_MASK
    ensures r.rc == 1 ==> forall a :: a != ACCEL_CONFIG ==> Reg(r.mpu.bus.chip.regs, a) == Reg(m.bus.chip.regs, a)
    ensures r.rc == -1 ==> r.mpu.accel == m.accel && r.mpu.bus.chip.regs == m.bus.chip.regs
    ensures Healthy(m.bus) ==> Healthy(r.mpu.bus) && r.rc == 1
  {
    var a := AccelScaleFor(code);
    var field := FsField(AccelCode(a), ACONFIG_AFS_SEL_BIT);
    var u := UpdateField(m, ACCEL_CONFIG, FS_SEL_MASK, field);
    var v := ReplaceField(Reg(m.bus.chip.regs, ACCEL_CONFIG), FS_SEL_MASK, field);
    FsFieldDecides(v, field);
    TableFieldDecodes(code);
    if u.rc == 1 then Status(1, u.mpu.(accel := a)) else u
  }

  /** Any range code written and read back, each call succeeding, reads as the range the table gives it. */
  lemma RangeSetThenGet(m: Mpu, code: bv8)
    requires SetFullScaleGyroRange(m, code).rc == 1 && GetFullScaleGyroRange(SetFullScaleGyroRange(m, code).mpu).rc == 1
    requires SetFullScaleAccelRange(m, code).rc == 1 && GetFullScaleAccelRange(SetFullScaleAccelRange(m, code).mpu).rc == 1
    ensures GyroRangeOf(GetFullScaleGyroRange(SetFullScaleGyroRange(m, code).mpu).value) == GyroScaleFor(code)
    ensures AccelRangeOf(GetFullScaleAccelRange(SetFullScaleAccelRange(m, code).mpu).value) == AccelScaleFor(code)
  {
  }

  /** A register whose FS_SEL bits equal a field's decodes to the same range as the field. */
  lemma FsFieldDecides(v: bv8, field: bv8)
    requires v & FS_SEL_MASK == field
    ensures FsSelOf(v) == FsSelOf(field)
    ensures GyroRangeOf(v) == GyroRangeOf(field) && AccelRangeOf(v) == AccelRangeOf(field)
  {
  }

  /**
   The field a corrected setter writes for `code` decodes to the table's
   entry for `code`, and for a documented code its FS_SEL bits are `code`.
   */
  lemma TableFieldDecodes(code: bv8)
    ensures GyroRangeOf(FsField(GyroCode(GyroScaleFor(code)), GCONFIG_FS_SEL_BIT)) == GyroScaleFor(code)
    ensures AccelRangeOf(FsField(AccelCode(AccelScaleFor(code)), ACONFIG_AFS_SEL_BIT)) == AccelScaleFor(code)
    ensures code < 4 ==> FsSelOf(FsField(GyroCode(GyroScaleFor(code)), GCONFIG_FS_SEL_BIT)) == code
    ensures code < 4 ==> FsSelOf(FsField(AccelCode(AccelScaleFor(code)), ACONFIG_AFS_SEL_BIT)) == code
  {
    FieldOfRangeDecodes(GyroScaleFor(code), AccelScaleFor(code));
  }

  /** getSleepEnabled, corrected: false on a failed read, otherwise bit 6 of PWR_MGMT_1. */
  function GetSleepEnabled(m: Mpu): (r: Flag)
    ensures Extends(m.bus, r.mpu.bus) && r.mpu.bus.chip.regs == m.bus.chip.regs
    ensures RegRead(Calls(m, r.mpu), PWR_MGMT_1, SingleByte)
    ensures r.value ==> SleepOf(Reg(m.bus.chip.regs, PWR_MGMT_1))
    ensures RegReadRc(Calls(m, r.mpu)) != 1 ==> !r.value
    ensures RegReadRc(Calls(m, r.mpu)) == 1 ==> (r.value <==> SleepOf(Reg(m.bus.chip.regs, PWR_MGMT_1)))
    ensures Healthy(m.bus) ==> (r.value <==> SleepOf(Reg(m.bus.chip.regs, PWR_MGMT_1)))
  {
    var f := ReadByte(m, PWR_MGMT_1);
    Flag(f.rc == 1 && SleepOf(f.value), f.mpu)
  }

  /** The SLEEP field of PWR_MGMT_1 for a requested state. */
  function SleepField(on: bool): (f: bv8)
    ensures f & !SLEEP_MASK == 0
    ensures (f != 0) == on
  {
    if on then SLEEP_MASK else 0
  }

  /** Replacing the SLEEP field is exactly the literal driver's set-or-clear of bit 6. */
  lemma SleepFieldIsSleepByte(held: bv8, on: bool)
    ensures ReplaceField(held, SLEEP_MASK, SleepField(on)) == SleepByte(held, on)
  {
  }

  /** setSleepEnabled, corrected: replace bit 6 only, checking every transfer. */
  function SetSleepEnabled(m: Mpu, on: bool): (r: Status)
    ensures Extends(m.bus, r.mpu.bus) && Disciplined(Calls(m, r.mpu)) && Opening(Calls(m, r.mpu))
    ensures r.mpu.gyro == m.gyro && r.mpu.accel == m.accel && r.mpu.sample == m.sample && r.mpu.burstReg == m.burstReg
    ensures r.rc == 1 || r.rc == -1
    ensures r.rc == 1 <==> AllCompleted(Calls(m, r.mpu))
    ensures StopsAtFailure(Calls(m, r.mpu))
    ensures r.rc == 1 ==> r.mpu.bus.chip.regs == m.bus.chip.regs[PWR_MGMT_1 as int := SleepByte(Reg(m.bus.chip.regs, PWR_MGMT_1), on)]
    ensures r.rc == 1 ==> SleepOf(Reg(r.mpu.bus.chip.regs, PWR_MGMT_1)) == on
    ensures r.rc == 1 ==> ClockOf(Reg(r.mpu.bus.chip.regs, PWR_MGMT_1)) == ClockOf(Reg(m.bus.chip.regs, PWR_MGMT_1))
    ensures r.rc == 1 ==> forall a :: a != PWR_MGMT_1 ==> Reg(r.mpu.bus.chip.regs, a) == Reg(m.bus.chip.regs, a)
    ensures r.rc == -1 ==> r.mpu.bus.chip.regs == m.bus.chip.regs
    ensures Healthy(m.bus) ==> Healthy(r.mpu.bus) && r.rc == 1
  {
    var r := UpdateField(m, PWR_MGMT_1, SLEEP_MASK, SleepField(on));
    SleepFieldIsSleepByte(Reg(m.bus.chip.regs, PWR_MGMT_1), on);
    SleepFieldKeepsClock(Reg(m.bus.chip.regs, PWR_MGMT_1), SleepField(on));
    r
  }

  /** On a healthy bus the sleep state read back is the one just set. */
  lemma SleepSetThenGet(m: Mpu, on: bool)
    requires Healthy(m.bus)
    ensures GetSleepEnabled(SetSleepEnabled(m, on).mpu).value == on
  {
  }

  /**
   getSensorValues, corrected: the burst counts only when all fourteen
   bytes arrived; otherwise the call returns -1 and the sample buffer keeps
   its previous contents.
   */
  function GetSensorValues(m: Mpu): (r: Status)
    ensures r.mpu == m.(bus := r.mpu.bus, sample := r.mpu.sample)
    ensures Extends(m.bus, r.mpu.bus) && r.mpu.bus.chip.regs == m.bus.chip.regs
    ensures RegRead(Calls(m, r.mpu), m.burstReg, SampleBytes)
    ensures r.rc == 1 || r.rc == -1
    ensures r.rc == 1 <==> RegReadRc(Calls(m, r.mpu)) == SampleBytes
    ensures r.rc == -1 ==> r.mpu.sample == m.sample
    ensures r.rc == 1 ==> forall c :: Field(r.mpu.sample, c) == RegisterWord(m.bus.chip.regs, m.burstReg, c)
    ensures Healthy(m.bus) ==> Healthy(r.mpu.bus) && r.rc == 1
  {
    var rd := ReadRegExact(m.bus, m.burstReg, m.sample);
    if rd.rc == SampleBytes then
      BurstWords(m.bus.chip.regs, m.burstReg);
      Status(1, m.(bus := rd.bus, sample := SwapAllBytes(rd.buf)))
    else
      Status(-1, m.(bus := rd.bus))
  }

  /**
   getDoubleSensorValues, corrected: every count it returns is the signed
   value of its channel's register pair, whatever the bus did; a failed
   burst leaves the outputs as they were.
   */
  function GetDoubleSensorValues(m: Mpu, out: Counts): (r: Reading)
    ensures r.mpu == m.(bus := r.mpu.bus, sample := r.mpu.sample)
    ensures r.accel == m.accel && r.gyro == m.gyro
    ensures Extends(m.bus, r.mpu.bus) && r.mpu.bus.chip.regs == m.bus.chip.regs
    ensures RegRead(Calls(m, r.mpu), m.burstReg, SampleBytes)
    ensures r.rc == 1 || r.rc == -1
    ensures r.rc == -1 ==> r.counts == out && r.mpu.sample == m.sample
    ensures r.rc == 1 ==> forall c :: r.counts.Of(c) == SignedWire(RegisterWord(m.bus.chip.regs, m.burstReg, c))
    ensures Healthy(m.bus) ==> Healthy(r.mpu.bus) && r.rc == 1
  {
    var g := GetSensorValues(m);
    if g.rc == 1 then
      var d := DecodeAll(g.mpu.sample);
      DecodeSigned(g.mpu.sample);
      Reading(1, d.counts, g.mpu.accel, g.mpu.gyro, g.mpu.(sample := d.buffer))
    else
      Reading(-1, out, g.mpu.accel, g.mpu.gyro, g.mpu)
  }

  lemma DecodeSigned(s: Raw)
    ensures forall c :: DecodeAll(s).counts.Of(c) == SignedWire(Field(s, c))
  {
  }

  /**
   First half of initialize's configuration, stopping at the first failed
   step: the X-gyro PLL as clock, then +/-250 deg/s.
   */
  function ConfigureClockAndGyro(m: Mpu): (r: Status)
    ensures Extends(m.bus, r.mpu.bus) && Disciplined(Calls(m, r.mpu)) && Opening(Calls(m, r.mpu))
    ensures r.mpu.accel == m.accel && r.mpu.sample == m.sample && r.mpu.burstReg == m.burstReg
    ensures r.rc == 1 || r.rc == -1
    ensures r.rc == 1 <==> AllCompleted(Calls(m, r.mpu))
    ensures StopsAtFailure(Calls(m, r.mpu))
    ensures InSync(m) ==> InSync(r.mpu)
    ensures r.rc == 1 ==> ClockOf(Reg(r.mpu.bus.chip.regs, PWR_MGMT_1)) == PllGyroX
    ensures r.rc == 1 ==> SleepOf(Reg(r.mpu.bus.chip.regs, PWR_MGMT_1)) == SleepOf(Reg(m.bus.chip.regs, PWR_MGMT_1))
    ensures r.rc == 1 ==> r.mpu.gyro == Dps250 == GyroRangeOf(Reg(r.mpu.bus.chip.regs, GYRO_CONFIG))
    ensures r.rc == 1 ==> Reg(r.mpu.bus.chip.regs, ACCEL_CONFIG) == Reg(m.bus.chip.regs, ACCEL_CONFIG)
    ensures Healthy(m.bus) ==> Healthy(r.mpu.bus) && r.rc == 1
  {
    var s1 := SetClockSource(m, CLOCK_PLL_XGYRO);
    if s1.rc != 1 then
      s1
    else
      var s2 := SetFullScaleGyroRange(s1.mpu, GYRO_FS_250);
      Chain(m, s1.mpu, s2.mpu);
      Continue(m, s1.mpu, s2.mpu);
      assert GyroScaleFor(GYRO_FS_250) == Dps250;
      s2
  }

  /**
   Second half of initialize's configuration, stopping at the first failed
   step: +/-2 g, then sleep off.
   */
  function ConfigureAccelAndSleep(m: Mpu): (r: Status)
    ensures Extends(m.bus, r.mpu.bus) && Disciplined(Calls(m, r.mpu)) && Opening(Calls(m, r.mpu))
    ensures r.mpu.gyro == m.gyro && r.mpu.sample == m.sample && r.mpu.burstReg == m.burstReg
    ensures r.rc == 1 || r.rc == -1
    ensures r.rc == 1 <==> AllCompleted(Calls(m, r.mpu))
    ensures StopsAtFailure(Calls(m, r.mpu))
    ensures InSync(m) ==> InSync(r.mpu)
    ensures r.rc == 1 ==> r.mpu.accel == G2 == AccelRangeOf(Reg(r.mpu.bus.chip.regs, ACCEL_CONFIG))
    ensures r.rc == 1 ==> !SleepOf(Reg(r.mpu.bus.chip.regs, PWR_MGMT_1))
    ensures r.rc == 1 ==> ClockOf(Reg(r.mpu.bus.chip.regs, PWR_MGMT_1)) == ClockOf(Reg(m.bus.chip.regs, PWR_MGMT_1))
    ensures r.rc == 1 ==> Reg(r.mpu.bus.chip.regs, GYRO_CONFIG) == Reg(m.bus.chip.regs, GYRO_CONFIG)
    ensures Healthy(m.bus) ==> Healthy(r.mpu.bus) && r.rc == 1
  {
    var s3 := SetFullScaleAccelRange(m, ACCEL_FS_2);
    if s3.rc != 1 then
      s3
    else
      var s4 := SetSleepEnabled(s3.mpu, false);
      Chain(m, s3.mpu, s4.mpu);
      Continue(m, s3.mpu, s4.mpu);
      assert AccelScaleFor(ACCEL_FS_2) == G2;
      assert Reg(s4.mpu.bus.chip.regs, ACCEL_CONFIG) == Reg(s3.mpu.bus.chip.regs, ACCEL_CONFIG);
      assert Reg(s4.mpu.bus.chip.regs, GYRO_CONFIG) == Reg(s3.mpu.bus.chip.regs, GYRO_CONFIG);
      s4
  }

  /** The configuration initialize asks for: X-gyro PLL, awake, +/-250 deg/s and +/-2 g in both registers and scales. */
  predicate Ready(m: Mpu)
  {
    && ClockOf(Reg(m.bus.chip.regs, PWR_MGMT_1)) == PllGyroX
    && !SleepOf(Reg(m.bus.chip.regs, PWR_MGMT_1))
    && m.gyro == Dps250 && GyroRangeOf(Reg(m.bus.chip.regs, GYRO_CONFIG)) == Dps250
    && m.accel == G2 && AccelRangeOf(Reg(m.bus.chip.regs, ACCEL_CONFIG)) == G2
  }

  /**
   initialize, corrected: -1 if WHO_AM_I could not be read, -2 if it does
   not hold 0x68, -3 if any configuration step failed, and 0 only when
   every step took effect.
   */
  function Initialize(m: Mpu): (r: Status)
    ensures r.rc == -1 || r.rc == -2 || r.rc == ConfigFailed || r.rc == 0
    ensures Extends(m.bus, r.mpu.bus) && Disciplined(Calls(m, r.mpu)) && Opening(Calls(m, r.mpu))
    ensures PointerWrite(Calls(m, r.mpu)[0], WHO_AM_I)
    ensures r.rc == -1 ==> RegRead(Calls(m, r.mpu), WHO_AM_I, SingleByte) && RegReadRc(Calls(m, r.mpu)) != 1
    ensures r.rc == -2 ==> RegRead(Calls(m, r.mpu), WHO_AM_I, SingleByte) && Reg(m.bus.chip.regs, WHO_AM_I) != DEVICE_IDENTITY
    ensures r.rc == ConfigFailed || r.rc == 0 ==> Reg(m.bus.chip.regs, WHO_AM_I) == DEVICE_IDENTITY
    ensures r.rc == 0 <==> AllCompleted(Calls(m, r.mpu)) && Reg(m.bus.chip.regs, WHO_AM_I) == DEVICE_IDENTITY
    ensures r.rc == ConfigFailed <==> |Calls(m, r.mpu)| > 2 && !AllCompleted(Calls(m, r.mpu))
    ensures StopsAtFailure(Calls(m, r.mpu))
    ensures r.rc == -1 || r.rc == -2 ==> r.mpu.bus.chip.regs == m.bus.chip.regs && r.mpu.gyro == m.gyro && r.mpu.accel == m.accel
    ensures InSync(m) ==> InSync(r.mpu)
    ensures r.rc == 0 ==> Ready(r.mpu) && InSync(r.mpu)
    ensures Healthy(m.bus) ==> Healthy(r.mpu.bus) && (r.rc == 0 <==> Reg(m.bus.chip.regs, WHO_AM_I) == DEVICE_IDENTITY)
  {
    var f := ReadByte(m, WHO_AM_I);
    if f.rc != 1 then
      RegReadDisciplined(Calls(m, f.mpu), WHO_AM_I, SingleByte);
      Status(-1, f.mpu)
    else if f.value != DEVICE_IDENTITY then
      RegReadDisciplined(Calls(m, f.mpu), WHO_AM_I, SingleByte);
      Status(-2, f.mpu)
    else
      var h := ConfigureClockAndGyro(f.mpu);
      Continue(m, f.mpu, h.mpu);
      if h.rc != 1 then
        Identified(m, f.mpu, h.mpu);
        Status(ConfigFailed, h.mpu)
      else
        var c := ConfigureAccelAndSleep(h.mpu);
        Chain(f.mpu, h.mpu, c.mpu);
        Continue(f.mpu, h.mpu, c.mpu);
        Continue(m, f.mpu, c.mpu);
        Identified(m, f.mpu, c.mpu);
        Status(if c.rc == 1 then 0 else ConfigFailed, c.mpu)
  }

  /** The calls of an initialize that got past the identity check: that read, then a disciplined configuration run. */
  lemma Identified(m: Mpu, f: Mpu, c: Mpu)
    requires Extends(m.bus, f.bus) && Extends(f.bus, c.bus)
    requires RegRead(Calls(m, f), WHO_AM_I, SingleByte) && RegReadRc(Calls(m, f)) >= 0
    requires Disciplined(Calls(f, c)) && Opening(Calls(f, c))
    ensures Extends(m.bus, c.bus) && Disciplined(Calls(m, c)) && Opening(Calls(m, c))
    ensures PointerWrite(Calls(m, c)[0], WHO_AM_I)
  {
    NewCallsSplit(m.bus, f.bus, c.bus);
    IdentifiedThenConfigured(Calls(m, f), Calls(f, c));
  }

  /** The commands that only read the part. */
  predicate IsQuery(c: Command)
  {
    c.GetClockCmd? || c.GetGyroRangeCmd? || c.GetAccelRangeCmd? || c.GetSleepCmd? || c.SampleCmd?
  }

  /** The state after a reading command: no register and no scale entry changes. */
  function QueryStep(m: Mpu, c: Command): (r: Mpu)
    requires IsQuery(c)
    ensures Extends(m.bus, r.bus) && Disciplined(Calls(m, r)) && Opening(Calls(m, r))
    ensures r.bus.chip.regs == m.bus.chip.regs && r.gyro == m.gyro && r.accel == m.accel
  {
    match c
    case GetClockCmd =>
      var g := GetClockSource(m);
      RegReadDisciplined(Calls(m, g.mpu), PWR_MGMT_1, SingleByte);
      g.mpu
    case GetGyroRangeCmd =>
      var g := GetFullScaleGyroRange(m);
      RegReadDisciplined(Calls(m, g.mpu), GYRO_CONFIG, SingleByte);
      g.mpu
    case GetAccelRangeCmd =>
      var g := GetFullScaleAccelRange(m);
      RegReadDisciplined(Calls(m, g.mpu), ACCEL_CONFIG, SingleByte);
      g.mpu
    case GetSleepCmd =>
      var g := GetSleepEnabled(m);
      RegReadDisciplined(Calls(m, g.mpu), PWR_MGMT_1, SingleByte);
      g.mpu
    case SampleCmd =>
      var g := GetDoubleSensorValues(m, Counts(0, 0, 0, 0, 0, 0, 0));
      RegReadDisciplined(Calls(m, g.mpu), m.burstReg, SampleBytes);
      g.mpu
  }

  /** The commands that set a full-scale range. */
  predicate IsRangeSet(c: Command)
  {
    c.SetGyroRangeCmd? || c.SetAccelRangeCmd?
  }

  /** The state after a range setter: the scale entries keep agreeing with the registers. */
  function RangeStep(m: Mpu, c: Command): (r: Mpu)
    requires IsRangeSet(c)
    ensures Extends(m.bus, r.bus) && Disciplined(Calls(m, r)) && Opening(Calls(m, r))
    ensures InSync(m) ==> InSync(r)
  {
    match c
    case SetGyroRangeCmd(code) => SetFullScaleGyroRange(m, code).mpu
    case SetAccelRangeCmd(code) => SetFullScaleAccelRange(m, code).mpu
  }

  /** The state after one command of the corrected driver. */
  function Step(m: Mpu, c: Command): (r: Mpu)
    ensures Extends(m.bus, r.bus) && Disciplined(Calls(m, r)) && Opening(Calls(m, r))
    ensures InSync(m) ==> InSync(r)
  {
    if IsQuery(c) then QueryStep(m, c)
    else if IsRangeSet(c) then RangeStep(m, c)
    else
      match c
      case InitializeCmd => Initialize(m).mpu
      case SetClockCmd(source) => SetClockSource(m, source).mpu
      case SetSleepCmd(on) => SetSleepEnabled(m, on).mpu
  }

  /**
   A program of calls to the corrected driver. Once the scale entries agree
   with the registers they keep agreeing, whatever the bus does, so every
   count is divided by the sensitivity of the range the part is set to.
   */
  function Run(m: Mpu, cmds: seq<Command>): (r: Mpu)
    ensures Extends(m.bus, r.bus) && Disciplined(Calls(m, r))
    ensures cmds != [] ==> Opening(Calls(m, r))
    ensures InSync(m) ==> InSync(r)
    decreases |cmds|
  {
    if cmds == [] then
      m
    else
      var m1 := Step(m, cmds[0]);
      var r := Run(m1, cmds[1..]);
      if cmds[1..] == [] then
        r
      else
        Chain(m, m1, r);
        r
  }

  /** After an initialize that reported success, any program keeps scales and registers in agreement. */
  lemma InitializedStaysInSync(m: Mpu, cmds: seq<Command>)
    requires Initialize(m).rc == 0
    ensures InSync(Run(Initialize(m).mpu, cmds))
  {
  }
}

=== FILE: register_map.dfy ===
/**
 The MPU-6050 registers, bit positions and code tables the driver uses.

 Addresses and bit positions follow the MPU-6000/MPU-6050 Register Map and
 Descriptions: section 4.4 (GYRO_CONFIG), section 4.5 (ACCEL_CONFIG),
 sections 4.17-4.19 (sensor output registers), section 4.28 (PWR_MGMT_1) and
 section 4.32 (WHO_AM_I). The driver's own register-map header is not part
 of this model; the constants below are the values that header is assumed to
 carry.
 */
module RegisterMap {

  const WHO_AM_I: bv8 := 0x75
  const PWR_MGMT_1: bv8 := 0x6B
  const GYRO_CONFIG: bv8 := 0x1B
  const ACCEL_CONFIG: bv8 := 0x1C
  /** First of the fourteen output registers read in one burst. */
  const ACCEL_XOUT_H: bv8 := 0x3B
  const TEMP_OUT_H: bv8 := 0x41
  const GYRO_XOUT_H: bv8 := 0x43

  /** Value WHO_AM_I holds on a genuine part. */
  const DEVICE_IDENTITY: bv8 := 0x68

  const PWR1_SLEEP_BIT: bv8 := 6
  const GCONFIG_FS_SEL_BIT: bv8 := 4
  const ACONFIG_AFS_SEL_BIT: bv8 := 4

  /** Masks of the fields the driver touches. */
  const CLKSEL_MASK: bv8 := 0x07
  const FS_SEL_MASK: bv8 := 0x18
  const SLEEP_MASK: bv8 := 0x40

  const CLOCK_PLL_XGYRO: bv8 := 0x01
  const GYRO_FS_250: bv8 := 0x00
  const GYRO_FS_500: bv8 := 0x01
  const GYRO_FS_1000: bv8 := 0x02
  const GYRO_FS_2000: bv8 := 0x03
  const ACCEL_FS_2: bv8 := 0x00
  const ACCEL_FS_4: bv8 := 0x01
  const ACCEL_FS_8: bv8 := 0x02
  const ACCEL_FS_16: bv8 := 0x03

  /** The CLK_SEL table of PWR_MGMT_1, bits 2:0. */
  datatype ClockSource =
    | Internal8MHz
    | PllGyroX
    | PllGyroY
    | PllGyroZ
    | PllExternal32kHz
    | PllExternal19MHz
    | Reserved
    | Stopped

  function ClockCode(c: ClockSource): (code: bv8)
    ensures code & CLKSEL_MASK == code
  {
    match c
    case Internal8MHz => 0
    case PllGyroX => 1
    case PllGyroY => 2
    case PllGyroZ => 3
    case PllExternal32kHz => 4
    case PllExternal19MHz => 5
    case Reserved => 6
    case Stopped => 7
  }

  /** The clock source selected by the CLK_SEL bits of a PWR_MGMT_1 value. */
  function ClockOf(reg: bv8): (c: ClockSource)
    ensures ClockCode(c) == reg & CLKSEL_MASK
  {
    var code := reg & CLKSEL_MASK;
    if code == 0 then Internal8MHz
    else if code == 1 then PllGyroX
    else if code == 2 then PllGyroY
    else if code == 3 then PllGyroZ
    else if code == 4 then PllExternal32kHz
    else if code == 5 then PllExternal19MHz
    else if code == 6 then Reserved
    else Stopped
  }

  /** Every clock source has a 3-bit code, and the code decodes back to it. */
  lemma ClockCodeRoundTrip(c: ClockSource)
    ensures ClockCode(c) < 8
    ensures ClockOf(ClockCode(c)) == c
  {
  }

  /** Full-scale ranges of the gyroscope (section 4.4), most sensitive first. */
  datatype GyroRange = Dps250 | Dps500 | Dps1000 | Dps2000

  /** Full-scale ranges of the accelerometer (section 4.5), most sensitive first. */
  datatype AccelRange = G2 | G4 | G8 | G16

  function GyroCode(g: GyroRange): (code: bv8)
    ensures code < 4
  {
    match g
    case Dps250 => GYRO_FS_250
    case Dps500 => GYRO_FS_500
    case Dps1000 => GYRO_FS_1000
    case Dps2000 => GYRO_FS_2000
  }

  function AccelCode(a: AccelRange): (code: bv8)
    ensures code < 4
  {
    match a
    case G2 => ACCEL_FS_2
    case G4 => ACCEL_FS_4
    case G8 => ACCEL_FS_8
    case G16 => ACCEL_FS_16
  }

  /** Full-scale magnitude in degrees per second. */
  function GyroFullScale(g: GyroRange): nat
  {
    match g
    case Dps250 => 250
    case Dps500 => 500
    case Dps1000 => 1000
    case Dps2000 => 2000
  }

  /** Full-scale magnitude in multiples of g. */
  function AccelFullScale(a: AccelRange): nat
  {
    match a
    case G2 => 2
    case G4 => 4
    case G8 => 8
    case G16 => 16
  }

  /**
   The scale-table entry a gyro range code selects: the four documented codes
   select their own entry, any other code falls back to the +/-250 deg/s entry.
   */
  function GyroScaleFor(code: bv8): (g: GyroRange)
    ensures code < 4 ==> GyroCode(g) == code
    ensures code >= 4 ==> g == Dps250
  {
    if code == GYRO_FS_250 then Dps250
    else if code == GYRO_FS_500 then Dps500
    else if code == GYRO_FS_1000 then Dps1000
    else if code == GYRO_FS_2000 then Dps2000
    else Dps250
  }

  /**
   The scale-table entry an accel range code selects: the four documented
   codes select their own entry, any other code falls back to +/-2 g.
   */
  function AccelScaleFor(code: bv8): (a: AccelRange)
    ensures code < 4 ==> AccelCode(a) == code
    ensures code >= 4 ==> a == G2
  {
    if code == ACCEL_FS_2 then G2
    else if code == ACCEL_FS_4 then G4
    else if code == ACCEL_FS_8 then G8
    else if code == ACCEL_FS_16 then G16
    else G2
  }

  /** Each range's own code selects that range back from the table. */
  lemma ScaleTablesRoundTrip(g: GyroRange, a: AccelRange)
    ensures GyroScaleFor(GyroCode(g)) == g
    ensures AccelScaleFor(AccelCode(a)) == a
  {
  }

  /** The gyro table is monotone: a larger code never selects a smaller range. */
  lemma GyroTableMonotone(c1: bv8, c2: bv8)
    requires c1 <= c2 < 4
    ensures GyroFullScale(GyroScaleFor(c1)) <= GyroFullScale(GyroScaleFor(c2))
  {
  }

  /** A larger documented accel code never selects a smaller full-scale range. */
  lemma AccelTableMonotone(c1: bv8, c2: bv8)
    requires c1 <= c2 < 4
    ensures AccelFullScale(AccelScaleFor(c1)) <= AccelFullScale(AccelScaleFor(c2))
  {
  }

  /**
   The clock-select field a setter merges in: the low three bits of the
   argument, computed as `source & 0b111`.
   */
  function ClockField(source: bv8): (f: bv8)
    ensures f < 8
    ensures ClockOf(f) == ClockOf(source)
  {
    source & CLKSEL_MASK
  }

  /**
   The full-scale field a range setter merges in, computed as in the source:
   the code is promoted to int, shifted left by `selBit - 1` and masked
   with 0b00011000. The gyro setter passes GCONFIG_FS_SEL_BIT, the accel
   setter ACONFIG_AFS_SEL_BIT; with either (both are 4) the code's low two
   bits land in bits 4:3.
   */
  function FsField(code: bv8, selBit: bv8): (f: bv8)
    requires 1 <= selBit <= 8
    ensures f & !FS_SEL_MASK == 0
    ensures selBit == GCONFIG_FS_SEL_BIT ==> (f >> 3) == code & 3
  {
    ((code as bv32 << (selBit - 1) as bv32) & (FS_SEL_MASK as bv32)) as bv8
  }

  /** The two FS_SEL bits (4:3) of a configuration-register value. */
  function FsSelOf(reg: bv8): (code: bv8)
    ensures code < 4
  {
    (reg >> 3) & 3
  }

  function GyroRangeOf(reg: bv8): GyroRange
  {
    GyroScaleFor(FsSelOf(reg))
  }

  function AccelRangeOf(reg: bv8): AccelRange
  {
    AccelScaleFor(FsSelOf(reg))
  }

  /** The SLEEP bit (bit 6) of a PWR_MGMT_1 value. */
  predicate SleepOf(reg: bv8)
  {
    reg & (1 << PWR1_SLEEP_BIT) != 0
  }

  /** Written field of a documented range code decodes back to that range. */
  lemma FieldOfRangeDecodes(g: GyroRange, a: AccelRange)
    ensures GyroRangeOf(FsField(GyroCode(g), GCONFIG_FS_SEL_BIT)) == g
    ensures AccelRangeOf(FsField(AccelCode(a), ACONFIG_AFS_SEL_BIT)) == a
  {
  }

  /**
   The merge every setter performs: OR the new field into the byte it holds.
   */
  function Merge(held: bv8, field: bv8): (r: bv8)
    ensures held & !r == 0
    ensures field & !r == 0
  {
    held | field
  }

  /**
   A bit that is already set survives Merge, so Merge can never lower a
   field: a clock source of 3 merged with code 0 still reads as 3.
   */
  lemma MergeCannotClearField()
    ensures ClockOf(Merge(0x03, ClockField(0))) == PllGyroZ
    ensures ClockOf(Merge(0x03, ClockField(0))) != ClockOf(ClockField(0))
  {
  }

  /**
   The intended read-modify-write: clear the field under `mask`, then put
   `field` there; bits outside `mask` keep their old value.
   */
  function ReplaceField(held: bv8, mask: bv8, field: bv8): (r: bv8)
    requires field & !mask == 0
    ensures r & mask == field
    ensures r & !mask == held & !mask
  {
    (held & !mask) | field
  }

  /** ReplaceField sets the clock source to exactly the requested one. */
  lemma ReplaceClockField(held: bv8, source: bv8)
    ensures ClockOf(ReplaceField(held, CLKSEL_MASK, ClockField(source))) == ClockOf(source)
    ensures SleepOf(ReplaceField(held, CLKSEL_MASK, ClockField(source))) == SleepOf(held)
  {
  }

  /** ReplaceField sets the full-scale range to exactly the requested one. */
  lemma ReplaceFsField(held: bv8, g: GyroRange, a: AccelRange)
    ensures GyroRangeOf(ReplaceField(held, FS_SEL_MASK, FsField(GyroCode(g), GCONFIG_FS_SEL_BIT))) == g
    ensures AccelRangeOf(ReplaceField(held, FS_SEL_MASK, FsField(AccelCode(a), ACONFIG_AFS_SEL_BIT))) == a
  {
    FieldOfRangeDecodes(g, a);
  }

  /**
   A range code above 3 selects the default scale entry but its low two
   bits still reach the register: code 5 gives the +/-250 deg/s scale and
   the +/-500 deg/s register field.
   */
  lemma OutOfTableCodeDesynchronizes()
    ensures GyroScaleFor(5) == Dps250
    ensures GyroRangeOf(FsField(5, GCONFIG_FS_SEL_BIT)) == Dps500
    ensures AccelScaleFor(6) == G2
    ensures AccelRangeOf(FsField(6, ACONFIG_AFS_SEL_BIT)) == G8
  {
  }

  /** Replacing the SLEEP bit leaves the clock source as it was. */
  lemma SleepFieldKeepsClock(held: bv8, field: bv8)
    requires field & !SLEEP_MASK == 0
    ensures ClockOf(ReplaceField(held, SLEEP_MASK, field)) == ClockOf(held)
    ensures SleepOf(ReplaceField(held, SLEEP_MASK, field)) == (field != 0)
  {
  }
}

=== FILE: sample_codec.dfy ===
/**
 The 14-byte sensor burst and its decoding.

 The burst starting at ACCEL_XOUT_H holds seven big-endian 16-bit fields in
 the order accel X, Y, Z, temperature, gyro X, Y, Z (sections 4.17-4.19 of
 the MPU-6050 register map). The driver receives the bytes in wire order
 into a buffer that it also views as seven 16-bit words; on the
 little-endian host it targets, each word reads its first byte as the low
 half. `SwapAllBytes` exchanges the halves of every word so that the word
 view then carries the big-endian value.
 */
module SampleCodec {

  const SampleBytes: nat := 14

  /** The burst buffer, as the bytes lie in memory. */
  type Raw = s: seq<bv8> | |s| == SampleBytes witness [0, 0, 0, 0, 0, 0, 0, 0, 0, 0, 0, 0, 0, 0]

  /** The seven fields of the burst, in buffer order. */
  datatype Channel = AccelX | AccelY | AccelZ | Temperature | GyroX | GyroY | GyroZ

  function Ordinal(c: Channel): (k: nat)
    ensures k < 7
  {
    match c
    case AccelX => 0
    case AccelY => 1
    case AccelZ => 2
    case Temperature => 3
    case GyroX => 4
    case GyroY => 5
    case GyroZ => 6
  }

  function ChannelAt(k: nat): (c: Channel)
    requires k < 7
    ensures Ordinal(c) == k
  {
    if k == 0 then AccelX
    else if k == 1 then AccelY
    else if k == 2 then AccelZ
    else if k == 3 then Temperature
    else if k == 4 then GyroX
    else if k == 5 then GyroY
    else GyroZ
  }

  /** Byte offset of a field inside the buffer. */
  function Offset(c: Channel): (i: nat)
    ensures i % 2 == 0 && i + 1 < SampleBytes
  {
    2 * Ordinal(c)
  }

  /**
   The fields tile the buffer: every byte belongs to exactly one field, as
   its first or second byte, and the fields come in channel order.
   */
  lemma FieldsTileBuffer(i: nat)
    requires i < SampleBytes
    ensures Offset(ChannelAt(i / 2)) == i - i % 2
    ensures forall c :: Offset(c) <= i <= Offset(c) + 1 ==> c == ChannelAt(i / 2)
  {
  }

  /**
   A 16-bit unsigned value. The uint16_t operators the driver applies are
   written out on integers: `x & 0x00FF` is `x % 256`, `x & 0xFF00` shifted
   right by 8 is `x / 256`, a left shift by 8 is a product with 256, an OR
   of disjoint bit ranges is a sum, and `~x` is `0xFFFF - x`.
   */
  type U16 = x: int | 0 <= x < 0x1_0000

  lemma DivMod256(lo: int, hi: int)
    requires 0 <= lo < 256 && 0 <= hi
    ensures (lo + 256 * hi) % 256 == lo && (lo + 256 * hi) / 256 == hi
  {
  }

  lemma ByteToIntToByte(b: bv8)
    ensures (b as int) as bv8 == b
  {
  }

  lemma IntToByteToInt(v: int)
    requires 0 <= v < 256
    ensures (v as bv8) as int == v
  {
    assert v % 256 == v;
  }

  /** SWAP_BYTES: exchange the high and the low byte of a 16-bit value. */
  function SwapBytes(x: U16): (r: U16)
    ensures r % 256 == x / 256 && r / 256 == x % 256
  {
    DivMod256(x / 256, x % 256);
    (x % 256) * 256 + x / 256
  }

  lemma SwapBytesTwice(x: U16)
    ensures SwapBytes(SwapBytes(x)) == x
  {
  }

  /** The 16-bit word two buffer bytes form on a little-endian host. */
  function HostWord(first: bv8, second: bv8): U16
  {
    first as int + 256 * second as int
  }

  /** The byte a 16-bit word puts first in memory on a little-endian host. */
  function FirstByte(w: U16): bv8
  {
    (w % 256) as bv8
  }

  /** The byte a 16-bit word puts second in memory on a little-endian host. */
  function SecondByte(w: U16): bv8
  {
    (w / 256) as bv8
  }

  /** Storing a word and reading it back through the word view loses nothing. */
  lemma WordBytesWord(w: U16)
    ensures HostWord(FirstByte(w), SecondByte(w)) == w
  {
    IntToByteToInt(w % 256);
    IntToByteToInt(w / 256);
  }

  /** Reading two bytes as a word gives back the first byte as its low half. */
  lemma FirstOfHostWord(first: bv8, second: bv8)
    ensures FirstByte(HostWord(first, second)) == first
  {
    var lo, hi := first as int, second as int;
    DivMod256(lo, hi);
    assert HostWord(first, second) % 256 == lo;
    ByteToIntToByte(first);
  }

  /** Reading two bytes as a word gives back the second byte as its high half. */
  lemma SecondOfHostWord(first: bv8, second: bv8)
    ensures SecondByte(HostWord(first, second)) == second
  {
    var lo, hi := first as int, second as int;
    DivMod256(lo, hi);
    assert HostWord(first, second) / 256 == hi;
    ByteToIntToByte(second);
  }

  /** SWAP_BYTES on a word view is the word view of the exchanged bytes. */
  lemma SwapBytesOfHostWord(first: bv8, second: bv8)
    ensures SwapBytes(HostWord(first, second)) == HostWord(second, first)
  {
    DivMod256(first as int, second as int);
  }

  /** The word view of one field of the buffer. */
  function Field(s: Raw, c: Channel): U16
  {
    HostWord(s[Offset(c)], s[Offset(c) + 1])
  }

  /** The big-endian value a field carries on the wire: high byte first. */
  function WireValue(s: Raw, c: Channel): U16
  {
    HostWord(s[Offset(c) + 1], s[Offset(c)])
  }

  /** Store a word into one field through the word view. */
  function StoreField(s: Raw, c: Channel, w: U16): (r: Raw)
    ensures Field(r, c) == w
    ensures forall i :: 0 <= i < SampleBytes && i != Offset(c) && i != Offset(c) + 1 ==> r[i] == s[i]
  {
    WordBytesWord(w);
    s[Offset(c) := FirstByte(w)][Offset(c) + 1 := SecondByte(w)]
  }

  /** SWAP_BYTES applied to one field through the word view. */
  function SwapField(s: Raw, c: Channel): (r: Raw)
    ensures r == s[Offset(c) := s[Offset(c) + 1]][Offset(c) + 1 := s[Offset(c)]]
  {
    SwapBytesOfHostWord(s[Offset(c)], s[Offset(c) + 1]);
    FirstOfHostWord(s[Offset(c) + 1], s[Offset(c)]);
    SecondOfHostWord(s[Offset(c) + 1], s[Offset(c)]);
    StoreField(s, c, SwapBytes(Field(s, c)))
  }

  /** True when field c of r holds the two bytes of field c of s exchanged. */
  predicate Exchanged(s: Raw, r: Raw, c: Channel)
  {
    r[Offset(c)] == s[Offset(c) + 1] && r[Offset(c) + 1] == s[Offset(c)]
  }

  /** Apply SWAP_BYTES to fields k..6, in buffer order. */
  function SwapFrom(s: Raw, k: nat): (r: Raw)
    requires k <= 7
    ensures forall i :: 0 <= i < 2 * k ==> r[i] == s[i]
    ensures forall c :: Ordinal(c) >= k ==> Exchanged(s, r, c)
    decreases 7 - k
  {
    if k == 7 then s
    else
      var c := ChannelAt(k);
      var s' := SwapField(s, c);
      SwapFieldFrame(s, c);
      FieldsApart();
      SwapFrom(s', k + 1)
  }

  /** Swapping one field leaves every byte outside it as it was. */
  lemma SwapFieldFrame(s: Raw, c: Channel)
    ensures forall i :: 0 <= i < SampleBytes && i != Offset(c) && i != Offset(c) + 1 ==> SwapField(s, c)[i] == s[i]
  {
  }

  /** Two different fields share no byte. */
  lemma FieldsApart()
    ensures forall c, c' :: c != c' ==> Offset(c') + 2 <= Offset(c) || Offset(c) + 2 <= Offset(c')
  {
    forall c, c' | c != c'
      ensures Offset(c') + 2 <= Offset(c) || Offset(c) + 2 <= Offset(c')
    {
      assert Ordinal(c') != Ordinal(c);
    }
  }

  /**
   swapAllBytes: SWAP_BYTES on each of the seven fields. The two bytes of
   every field trade places, and each field's word view afterwards carries
   the big-endian value the field had on the wire.
   */
  function SwapAllBytes(s: Raw): (r: Raw)
    ensures forall c :: Exchanged(s, r, c)
    ensures forall c :: Field(r, c) == WireValue(s, c)
  {
    SwapFrom(s, 0)
  }

  /** Two buffers agreeing on every field agree everywhere. */
  lemma FieldwiseEqual(s: Raw, r: Raw)
    requires forall c :: r[Offset(c)] == s[Offset(c)] && r[Offset(c) + 1] == s[Offset(c) + 1]
    ensures r == s
  {
    forall i | 0 <= i < SampleBytes
      ensures r[i] == s[i]
    {
      FieldsTileBuffer(i);
      var c := ChannelAt(i / 2);
      assert i == Offset(c) || i == Offset(c) + 1;
    }
  }

  lemma {:induction false} SwapAllBytesTwice(s: Raw)
    ensures SwapAllBytes(SwapAllBytes(s)) == s
  {
    var r := SwapAllBytes(SwapAllBytes(s));
    assert forall c :: Exchanged(SwapAllBytes(s), r, c);
    FieldwiseEqual(s, r);
  }

  /**
   What _f2sComplement leaves behind: the signed value it returns and the
   value it leaves in the word it was handed by reference.
   */
  datatype Decoded = Decoded(value: int, rewritten: U16)

  /**
   _f2sComplement: total on 16-bit inputs. A value with the top bit clear is
   returned as is; otherwise the word is overwritten with its uint16_t
   complement plus one, and the negation of that is returned.
   */
  function F2sComplement(x: U16): (d: Decoded)
    ensures -0x8000 <= d.value < 0x8000
    ensures x < 0x8000 ==> d.value == x && d.rewritten == x
    ensures x >= 0x8000 ==> d.value == x - 0x1_0000
    ensures x >= 0x8000 ==> d.rewritten == -d.value
  {
    if x >= 0x8000 then
      var y := ((0xFFFF - x) + 1) % 0x1_0000;
      Decoded(0 - y, y)
    else
      Decoded(x, x)
  }

  /** The 16-bit two's-complement pattern of a value in range. */
  function Encode16(v: int): (x: U16)
    requires -0x8000 <= v < 0x8000
    ensures x < 0x8000 <==> v >= 0
  {
    if v < 0 then v + 0x1_0000 else v
  }

  /** Decoding then encoding gives back the bit pattern. */
  lemma DecodeEncode(x: U16)
    ensures Encode16(F2sComplement(x).value) == x
  {
  }

  /** Encoding then decoding gives back the value, so the decode is a bijection. */
  lemma EncodeDecode(v: int)
    requires -0x8000 <= v < 0x8000
    ensures F2sComplement(Encode16(v)).value == v
  {
  }

  lemma F2sComplementSamples()
    ensures F2sComplement(0x0000).value == 0
    ensures F2sComplement(0x7FFF).value == 32767
    ensures F2sComplement(0x8000).value == -32768
    ensures F2sComplement(0xFFFF).value == -1
    ensures F2sComplement(0x8000).rewritten == 0x8000
    ensures F2sComplement(0xFFFF).rewritten == 0x0001
  {
  }

  /** The signed counts of one sample, one per channel. */
  datatype Counts = Counts(ax: int, ay: int, az: int, temp: int, gx: int, gy: int, gz: int)
  {
    function Of(c: Channel): int
    {
      match c
      case AccelX => ax
      case AccelY => ay
      case AccelZ => az
      case Temperature => temp
      case GyroX => gx
      case GyroY => gy
      case GyroZ => gz
    }
  }

  /** The counts a per-channel function gives. */
  function Tabulate(f: Channel -> int): (r: Counts)
    ensures forall c :: r.Of(c) == f(c)
  {
    Counts(f(AccelX), f(AccelY), f(AccelZ), f(Temperature), f(GyroX), f(GyroY), f(GyroZ))
  }

  /** The signed value of a big-endian 16-bit wire field. */
  function SignedWire(v: U16): int
  {
    if v < 0x8000 then v else v - 0x1_0000
  }

  /** Counts and buffer after getDoubleSensorValues decodes a swapped buffer. */
  datatype Decoding = Decoding(counts: Counts, buffer: Raw)

  /** Run _f2sComplement over fields k..6, in buffer order, each rewriting its own field. */
  function DecodeFrom(s: Raw, k: nat): (r: Raw)
    requires k <= 7
    ensures forall c :: Ordinal(c) < k ==> r[Offset(c)] == s[Offset(c)] && r[Offset(c) + 1] == s[Offset(c) + 1]
    ensures forall c :: Ordinal(c) >= k ==> Field(r, c) == F2sComplement(Field(s, c)).rewritten
    decreases 7 - k
  {
    if k == 7 then s
    else
      var c := ChannelAt(k);
      var w := F2sComplement(Field(s, c)).rewritten;
      StoreFieldKeepsOthers(s, c, w);
      DecodeFrom(StoreField(s, c, w), k + 1)
  }

  /** Storing one field leaves both bytes of every other field as they were. */
  lemma StoreFieldKeepsOthers(s: Raw, c: Channel, w: U16)
    ensures forall c' :: c' != c ==> StoreField(s, c, w)[Offset(c')] == s[Offset(c')]
    ensures forall c' :: c' != c ==> StoreField(s, c, w)[Offset(c') + 1] == s[Offset(c') + 1]
    ensures forall c' :: c' != c ==> Field(StoreField(s, c, w), c') == Field(s, c')
  {
    FieldsApart();
  }

  /**
   The integer part of getDoubleSensorValues: decode each field in channel
   order. A field is read before its own _f2sComplement call rewrites it, and
   no call touches another field, so every count comes from the buffer as
   it was handed in.
   */
  function DecodeAll(s: Raw): (r: Decoding)
    ensures forall c :: r.counts.Of(c) == F2sComplement(Field(s, c)).value
    ensures forall c :: Field(r.buffer, c) == F2sComplement(Field(s, c)).rewritten
  {
    Decoding(Tabulate(c => F2sComplement(Field(s, c)).value), DecodeFrom(s, 0))
  }

  /**
   Swapping then decoding turns each field's wire bytes into the signed
   big-endian value they encode.
   */
  lemma SwapThenDecode(wire: Raw)
    ensures forall c :: DecodeAll(SwapAllBytes(wire)).counts.Of(c) == SignedWire(WireValue(wire, c))
  {
    var s := SwapAllBytes(wire);
    forall c
      ensures DecodeAll(s).counts.Of(c) == SignedWire(WireValue(wire, c))
    {
      assert Field(s, c) == WireValue(wire, c);
    }
  }
}
